=== FILE: README.md ===
# dbf_light, modelled in Dafny

A model of the read-only dBase (`.dbf`) decoder in `dbf_light`. The file is
one immutable byte sequence with an explicit read cursor. Each exception
the modelled stages raise becomes a constructor of `Outcome.Error`, and
every stage returns a `Result`. Some exceptions are not modelled; "## Left out"
names them (codec errors, `float()` and `namedtuple`). The constructors are:

- `TruncatedSource`: `struct.unpack` on a short read.
- `InconsistentHeader`: the field-count assertion.
- `MissingTerminator`: the `DbfException` of `_read_fields`.
- `UnsupportedVariant`: the FoxPro `NotImplementedError`.
- `DecodeFailure`: a cast that cannot parse its text, or `bytes_to_int` on empty input.

Modules follow the package:

| module | models |
|---|---|
| `Outcome` | `Option`, `Result`, `Parsed` (a value plus the cursor after it) |
| `Bytes` | bytes, little- and big-endian readings, `fileobj.read(n)` as `Read`, text decoding |
| `Strings` | `str.strip`, `str.lower`, `int(...)`, `Decimal(...)`, `strptime('%Y%m%d')`, `str.rstrip` |
| `Layout` | `_base.Definition`: struct codes, widths, offsets, `_names`, `_unpack`, `from_file` |
| `Definitions` | `definitions.py`: the three layouts, `CODE_PAGES`, `Field`, `Prolog`, `get_format_description` |
| `Casts` | `cast.py`: the `parse_*` functions and `CAST_MAP` |
| `Light` | `light.py`: `Dbf.__init__`, `_read_fields`, `iter_rows` |
| `Utils` | `utils.py`: `bytes_to_int`, `pick_name` |

Where the code departs from the dBase file format, the model follows the code:

- A slot whose marker byte is `*` consumes only that one byte, not a whole record (`Light.ReadSlot`, `Light.DeletedRun`).
- Records are read directly after the `\r` terminator. Neither `len_head` nor `len_rec` is used to seek (`Light.DataStart`).
- A `len_head` of 1 passes the divisibility check and gives a field count of -1. The descriptor loop then reads nothing (`Definitions.NewProlog`, `Light.ReadFields`).

## Model

| member | source | states |
|---|---|---|
| Layout.Names | dbf_light/_base.py:19-26 | `_names` has one name per entry, in declaration order |
| Layout.SizeConcat | dbf_light/_base.py:27-29 | With the `<` prefix there is no padding, so the struct size of two concatenated layouts is the sum of their sizes |
| Layout.UnpackSeqAt | dbf_light/_base.py:33 | The value at position `i` of `struct.unpack` is entry `i`'s code decoded from exactly its width of bytes, starting at the sum of the earlier widths |
| Layout.ZipMap | dbf_light/_base.py:34 | `dict(zip(names, values))` binds exactly the names that occur, and a name bound more than once keeps the value at its last position |
| Layout.UnpackAt | dbf_light/_base.py:32-34 | `_unpack` maps an entry's name to the value decoded at that entry's own offset, unless a later entry reuses the name |
| Layout.UnpackUnique | dbf_light/_base.py:32-34 | The same, for a name no later entry declares |
| Layout.UnpackKey | dbf_light/_base.py:32-34 | A unique key at bytes `lo` up to `hi` is bound to its code decoded from exactly those bytes |
| Layout.UnpackByteKey | dbf_light/_base.py:33 | A `B` code reads the unsigned value of its byte |
| Layout.UnpackFlagKey | dbf_light/_base.py:33 | A `?` code reads true exactly when its byte is nonzero |
| Layout.UnpackIntKey | dbf_light/_base.py:27 | `H` and `I` codes read their bytes little-endian |
| Layout.UnpackChunkKey | dbf_light/_base.py:33 | `c` and `Ns` codes return their raw bytes unchanged |
| Layout.FromFile | dbf_light/_base.py:37-39 | `from_file` succeeds exactly when `_struct_size` bytes remain. It then consumes exactly that many and unpacks them; a short read is an error, never a partial decode |
| Definitions.FieldLayoutFields | dbf_light/definitions.py:22-30 | The descriptor layout has `name` in bytes 0-10, `type` at 11, `len` at 16 and the unsigned `decimal_count` at 17 |
| Definitions.FieldBytes | dbf_light/definitions.py:22-30 | The same facts for a descriptor at any file position, with a size of 32 bytes |
| Definitions.PrologLayoutFields | dbf_light/definitions.py:67-82 | The header layout has `signature` at 0, `records` as a little-endian u32 at 4, `len_head` and `len_rec` as u16 at 8 and 10, and `code_page` at 29 |
| Definitions.PrologBytes | dbf_light/definitions.py:67-82 | The same five fields (`signature`, `records`, `len_head`, `len_rec`, `code_page`) for a header at any file position, with a size of 32 bytes |
| Definitions.FoxproLaterReservedWins | dbf_light/definitions.py:112-114 | In the FoxPro descriptor the second `reserved2` (bytes 44-47) shadows the first in the unpacked map |
| Definitions.NewField | dbf_light/definitions.py:43-51 | The name loses exactly its trailing NULs and nothing else. `len` is the big-endian reading of the `len` bytes and fails exactly when they are empty. Attribute and map stay in step |
| Definitions.SetName | dbf_light/definitions.py:56-57 | `set_name` changes `name` and `data['name']` together and leaves every other entry and attribute alone |
| Definitions.FieldOf | dbf_light/definitions.py:33-41 | `from_file` yields the NUL-stripped name, lower-cased exactly when asked. It keeps the type bytes and decimal count, reads `len` as the big-endian value of its bytes (a one-byte `len` is that byte), and records the encoding |
| Definitions.FieldFromFile | dbf_light/definitions.py:32-41 | A descriptor read at `pos` succeeds exactly when 32 bytes remain and then advances 32. Its name, type, length and decimal count come from file bytes 0-10, 11, 16 and 17 after `pos` |
| Definitions.Cast | dbf_light/definitions.py:59-60 | `cast` applies the `CAST_MAP` entry for the type code. Any other code returns the raw bytes unchanged, and only a parse can fail |
| Definitions.CastTable | dbf_light/cast.py:63-70 | Through `cast`, type code C runs `parse_string`, D `parse_date`, N `parse_numeric` with the field's decimal count, F `parse_float`, L `parse_bool` and M `parse_memo`, each with the field's encoding |
| Definitions.NewProlog | dbf_light/definitions.py:84-96 | The header is accepted exactly when `len_head - 33` is a multiple of 32, and then `33 + 32 * fields_count == len_head`. `records_count` and `signature` are copied from the map |
| Definitions.Encoding | dbf_light/definitions.py:98-100 | The encoding is present exactly for code pages 1, 2, 3, 87, 101 and 201, and is then `CODE_PAGES[code_page]` |
| Definitions.EncodingNames | dbf_light/definitions.py:10-17 | Code by code: 1 is cp437, 2 is cp850, 3 is cp1252, 87 is ascii, 101 is cp866 and 201 is cp1251 |
| Definitions.ReadProlog | dbf_light/definitions.py:84-96 | A header read needs 32 bytes and a whole field count. Signature, record count, header length and code page are the file bytes at 0, 4-7, 8-9 and 29 after `pos` |
| Definitions.FormatDescription | dbf_light/definitions.py:170-177 | An empty file is truncated and signatures 48 and 49 are rejected. Every other signature selects the classic layouts with the cursor back at 0 |
| Casts.ParseString | dbf_light/cast.py:8-9 | The text is the bytes decoded with the field's codec, with some whitespace removed from each end, and neither end of it is whitespace |
| Casts.DecodeSpace | dbf_light/cast.py:9 | A decoded byte is whitespace exactly when it is ASCII whitespace or the code page's no-break space; other bytes above 0x7F are letters or symbols |
| Casts.ParseStringKeepsEnds | dbf_light/cast.py:9 | A field that neither starts nor ends with a space byte keeps every decoded character |
| Casts.CyrillicKept | dbf_light/cast.py:9 | "Москва" in cp866, whose last byte is 0xA0, keeps all six letters |
| Casts.TextOfPadded | dbf_light/cast.py:9 | Whitespace around trimmed text never reaches a cast |
| Casts.DateText | dbf_light/cast.py:12-18 | Blank text gives `None`. Any other result is a date that exists in the calendar, and every error is a decode failure |
| Casts.DateTextExact | dbf_light/cast.py:18 | A date read from text is the date the text spells: written back as `YYYYMMDD` it is that text |
| Casts.DateTextMalformed | dbf_light/cast.py:18 | Non-blank text that is not eight digits is a decode failure in the modelled eight-digit `strptime` (see Strings.ParseYmd under "## Left out") |
| Casts.ParseDateText | dbf_light/cast.py:12-18 | Every valid date written as `YYYYMMDD` reads back as that date |
| Casts.ParseDateRejects | dbf_light/cast.py:18 | A day that does not exist, such as `20200230`, is a decode failure |
| Casts.NumericText | dbf_light/cast.py:21-33 | Blank text gives `None`. Otherwise the result is an integer when the decimal count is 0 and an exact decimal otherwise, and every error is a decode failure |
| Casts.NumericRejects | dbf_light/cast.py:31 | With no decimals, non-blank text that is not an integer literal is a decode failure |
| Casts.NumericRejectsLetter | dbf_light/cast.py:28-31 | With any decimal count, a character that is not a digit, sign or point makes the text a decode failure in the modelled `Decimal()` and `int()` (Python's `Decimal` also takes exponents such as `1e5`; see Strings.ParseDecimal under "## Left out") |
| Casts.NumericDigits | dbf_light/cast.py:31 | With no decimals, digits read at face value with leading zeros ignored, and negated after a minus sign |
| Casts.LeadingZeros | dbf_light/cast.py:31 | `007` reads as 7 in a numeric field and in a memo field |
| Casts.NumericPointText | dbf_light/cast.py:28-29 | With decimals, the text `a.b` is the decimal with unscaled digits `ab` at scale `len(b)` |
| Casts.ParseNumericIntegerText | dbf_light/cast.py:31 | With no decimals, every integer's text reads back as that integer |
| Casts.ParseNumericDecimalText | dbf_light/cast.py:29 | With decimals, `a.b` reads back as unscaled digits `ab` at scale `len(b)`, so every written digit is kept |
| Casts.ParseNumericKeepsTrailingZero | dbf_light/cast.py:28-29 | "12.50" with two decimals is 1250 at scale 2, not a rounded value |
| Casts.ParseFloat | dbf_light/cast.py:36-42 | Blank text gives `None`, and any other text is handed to the float conversion |
| Casts.BoolText | dbf_light/cast.py:45-51 | Blank or `?` gives `None`, `t` or `y` in either case gives true, and anything else gives false |
| Casts.ParseBoolTrue | dbf_light/cast.py:45-51 | A lone `t`, `T`, `y` or `Y`, however padded, reads as true |
| Casts.MemoText | dbf_light/cast.py:54-60 | Blank text gives `None`, any other success is an integer, and every error is a decode failure |
| Casts.MemoRejects | dbf_light/cast.py:55-60 | Non-blank text that is not an integer literal is a decode failure, whatever its case |
| Casts.MemoDigits | dbf_light/cast.py:60 | A block number's digits read at face value, leading zeros included |
| Casts.ParseMemoText | dbf_light/cast.py:54-60 | Every block number's text reads back as that number |
| Casts.CastFor | dbf_light/cast.py:63-70 | `CAST_MAP` has an entry exactly for the one-byte codes C, D, F, L, M and N |
| Casts.CastForCodes | dbf_light/cast.py:63-70 | Each of the six codes selects its own parser |
| Casts.Apply | dbf_light/cast.py:63-70 | Only the date, numeric and memo casts can fail, and only with a decode failure |
| Strings.Strip | dbf_light/cast.py:9 | `strip()` removes whitespace from both ends, keeps the middle, and leaves neither end as whitespace |
| Strings.StripPadded | dbf_light/cast.py:9 | Stripping recovers any trimmed text from any whitespace padding |
| Strings.StripTrimmed | dbf_light/cast.py:9 | Text with no whitespace at either end is left as it is |
| Strings.StripIdempotent | dbf_light/cast.py:9 | Stripping twice is stripping once |
| Strings.Lower | dbf_light/cast.py:46 | `lower()` maps each character on its own and keeps the length |
| Strings.LowerIdempotent | dbf_light/cast.py:46 | Lower-casing twice is lower-casing once |
| Strings.LowerDigits | dbf_light/cast.py:55 | Lower-casing leaves a digit string unchanged, so `parse_memo`'s `lower()` cannot change a number |
| Strings.ParseIntText | dbf_light/cast.py:31 | The modelled `int()` reads every integer's decimal text back as that integer |
| Strings.ParseIntRejects | dbf_light/cast.py:31 | The modelled `int()` accepts only an optional sign followed by digits |
| Strings.ParseIntAccepts | dbf_light/cast.py:31 | The modelled `int()` accepts exactly the integer literals (Python's also takes underscores; see Strings.ParseInt under "## Left out"): at least one digit, and only digits apart from one leading sign |
| Strings.ParseIntDigits | dbf_light/cast.py:31 | A literal's value is its digits' value, negated after a minus sign, whatever its leading zeros |
| Strings.LowerKeepsLiteral | dbf_light/cast.py:55-60 | Lower-casing neither makes nor unmakes an integer literal |
| Strings.DecimalPointText | dbf_light/cast.py:29 | The modelled `Decimal("a.b")` has unscaled value `ab` and scale `len(b)`, which equals `a * 10^len(b) + b` |
| Strings.DecimalIntegralText | dbf_light/cast.py:29 | The modelled `Decimal` of plain digits has scale 0 |
| Strings.ParseDecimalRejects | dbf_light/cast.py:29 | The modelled `Decimal()` rejects text holding a character that is not a digit, sign or point |
| Strings.ParseYmdText | dbf_light/cast.py:18 | Every valid date written as `YYYYMMDD` parses back to itself |
| Strings.ParseYmdValid | dbf_light/cast.py:18 | A parsed date always exists in the calendar |
| Strings.ParseYmdOfText | dbf_light/cast.py:18 | Three numbers written as `YYYYMMDD` read back as themselves exactly when they form a calendar date, and are rejected otherwise |
| Strings.ParseYmdRejects | dbf_light/cast.py:18 | A day that does not exist, written as `YYYYMMDD`, is rejected |
| Strings.DigitsRoundTrip | dbf_light/cast.py:18 | Digits read as a number and written back at the same width are the same text |
| Strings.ParseYmdExact | dbf_light/cast.py:18 | Parsing `YYYYMMDD` and writing the date back are inverse: the date written back is the text parsed |
| Strings.RStrip | dbf_light/definitions.py:47 | `rstrip('\0')` removes exactly the trailing run of NULs and nothing before it |
| Strings.RStripPadded | dbf_light/definitions.py:47 | Any text not ending in NUL is recovered from any run of NULs after it |
| Bytes.Read | dbf_light/light.py:93 | `fileobj.read(n)` returns the next `min(n, remaining)` bytes and never fails |
| Bytes.DecodeEncode | dbf_light/cast.py:9 | Every codec decodes the bytes of ASCII text back to that text |
| Light.ResolveEncoding | dbf_light/light.py:37-40 | The encoding is the caller's when given, else the header's, and cp866 when that choice is missing or empty. It is never empty |
| Light.GivenEncodingWins | dbf_light/light.py:37-38 | A non-empty given encoding makes the header's code page irrelevant |
| Light.Dedupe | dbf_light/light.py:106-111 | Each final name is the read name or the read name plus one `_`, and there are as many final names as fields |
| Light.DedupeAt | dbf_light/light.py:108-111 | Field `i` gets a `_` exactly when its name is among the earlier fields' final names |
| Light.DedupePrefix | dbf_light/light.py:104-114 | The first `k` final names depend only on the first `k` read names |
| Light.DedupeKeepsDistinct | dbf_light/light.py:106-111 | Names that are already distinct are kept as they are |
| Light.CollisionWitness | dbf_light/light.py:108-111 | When no name ends in `_`, two equal final names trace back to three equal read names |
| Light.DedupeDistinct | dbf_light/light.py:113-114 | Final names are distinct when no name ends in `_` and no name occurs three times |
| Light.DedupeCollisions | dbf_light/light.py:113-114 | Final names need not be distinct: `a, a, a` and `a, a_, a` both end with two `a_` |
| Light.ReadDescriptors | dbf_light/light.py:104-105 | The descriptor loop succeeds exactly when `32 * n` bytes remain, and descriptor `i` is read at `pos + 32 * i` |
| Light.Renamed | dbf_light/light.py:106-113 | The renaming pass gives fields whose names are the deduplicated names. It changes only names, and a field whose name is not taken is kept as read |
| Light.ReadFields | dbf_light/light.py:98-121 | `_read_fields` succeeds exactly when the byte after `max(fields_count, 0)` descriptors is `\r`. It fails with a truncation or a missing terminator otherwise, and leaves the cursor just past the terminator |
| Light.CursorClamped | dbf_light/light.py:92-93 | After `i` fields the cursor has moved by the sum of their lengths, stopping at the end of the file |
| Light.WindowBytes | dbf_light/light.py:93 | Field `i` is cast from its `len` bytes after the earlier fields' bytes, cut short only by the end of the file |
| Light.Collect | dbf_light/light.py:92-94 | The loop succeeds exactly when every cast succeeds and then keeps every value in order. Otherwise it fails with the first failing cast's error |
| Light.FieldCasts | dbf_light/light.py:92-94 | There is one cast per field, and a cast fails only with a decode failure |
| Light.ReadRow | dbf_light/light.py:91-96 | A record has one cell per field and ends at the cursor after its last field |
| Light.RowOk | dbf_light/light.py:92-94 | A record decodes exactly when every field's cast of its window succeeds |
| Light.RowValues | dbf_light/light.py:92-96 | Cell `i` of a decoded record is field `i`'s cast of its window |
| Light.ReadSlot | dbf_light/light.py:83-96 | A missing marker is a truncation. A `*` marker gives a deleted slot one byte long. Any other marker is followed by one record of the right arity, read straight after it |
| Light.ScanRows | dbf_light/light.py:82-96 | Without an error all `records_count` slots are visited. Rows plus deleted slots equal the slots visited, every slot consumes at least one byte, and every row has one cell per field |
| Light.ScanStep | dbf_light/light.py:82-96 | One more slot never takes back a yielded row, and after an error it adds none |
| Light.ScanPrefix | dbf_light/light.py:82-96 | A consumer that stops early has seen a prefix of the rows of a longer iteration |
| Light.DeletedRun | dbf_light/light.py:83-89 | A run of `*` markers yields no rows and advances one byte per slot |
| Light.DeletedStep | dbf_light/light.py:86-89 | A deleted slot adds no row, one deleted count and one byte |
| Light.LiveStep | dbf_light/light.py:86-96 | A slot whose marker is not `*` yields exactly the record read after the marker and moves past it, or stops with that read's error and no new row; the deleted count is unchanged |
| Light.EndStep | dbf_light/light.py:83-85 | A marker missing at the end of the file stops the iteration with a truncation and no new row |
| Light.Open | dbf_light/light.py:26-121 | An empty file is truncated, signatures 48 and 49 are rejected, and a file under 32 bytes fails. Past that, a `len_head` for which `(len_head - 33) / 32` is not whole is InconsistentHeader, a file that ends before the terminator is truncated, a terminator other than `\r` is MissingTerminator, and a `\r` there opens the table. An opened table satisfies what `iter_rows` relies on. `__init__` and the `_read_fields` it calls are modelled; `open` and `iter_rows` in between are not part of this row |
| Light.OpenHeader | dbf_light/light.py:29-116 | An opened table's signature and record count are the header bytes at offset 0, and its encoding is the one resolved from the given encoding and the header's code page. It has `max(fields_count, 0)` fields, and its records begin just after a `\r`. Its fields are the descriptors at 32, 64, ..., read with the resolved encoding and renamed as `_read_fields` does |
| Light.OpenHeaderBytes | dbf_light/light.py:34-40 | The opened table's field count is the one `len_head` (bytes 8-9) gives, `33 + 32 * fields_count == len_head`, and its code page is byte 29. With no encoding passed, the encoding is that byte's `CODE_PAGES` entry, or cp866 when the byte has none |
| Light.DataStart | dbf_light/light.py:42 | Records begin at `len_head`, or at 33 when `len_head` is below 33 |
| Light.IterRows | dbf_light/light.py:71-96 | Without an error the rows yielded are `records_count` minus the deleted slots; an error stops the iteration before the last slot. `DeletedStep`, `LiveStep` and `EndStep` tie each slot to its marker byte |
| Utils.BytesToInt | dbf_light/utils.py:15-16 | `bytes_to_int` fails exactly on empty input, and otherwise the result fits in the input's byte count |
| Utils.BytesToIntByte | dbf_light/utils.py:15-16 | One byte reads as its unsigned value |
| Utils.BytesToIntAppend | dbf_light/utils.py:15-16 | Reading is big-endian: appending a byte multiplies the earlier value by 256 and adds it |
| Utils.BytesToIntRoundTrip | dbf_light/utils.py:15-16 | A number written as big-endian bytes reads back unchanged |
| Utils.TailStart | dbf_light/utils.py:21 | The base name starts after the last `/`, and contains no `/` |
| Utils.FirstMatch | dbf_light/utils.py:24-28 | Finds the first candidate whose base name equals the wanted one ignoring case, or reports that none does |
| Utils.PickName | dbf_light/utils.py:19-33 | `pick_name` returns the file name unchanged when no candidate matches. Otherwise it returns the first matching candidate joined onto the file's directory |

## Left out

- Bytes.DecodeByte: `.decode(encoding)` is modelled one byte at a time. Bytes below 0x80 decode as ASCII, and each code page's no-break space (0xFF in cp437, cp850 and cp866; 0xA0 in cp1251 and cp1252) decodes as U+00A0. Every other byte becomes a private-use character, so only whitespace and distinctness are faithful, not the code point itself.
- Bytes.DecodeByte: decoding errors are not modelled. The `ascii` codec rejects every byte above 0x7F, and cp1251 and cp1252 reject their undefined bytes (UnicodeDecodeError). An unknown codec name raises LookupError. A codec outside `CODE_PAGES` that the caller passes is decoded as one with no no-break space byte.
- Definitions.DescriptorName: field names go through `.decode()` with the default codec (UTF-8). This is modelled with the same per-byte decoding, so multi-byte names and invalid UTF-8 are not modelled.
- Strings.Lower: `lower()` is modelled on ASCII and the Latin-1 capitals only, not on the full Unicode case tables. Since decoding yields only ASCII, U+00A0 and private-use characters, the Latin-1 branch is never reached from a file, so non-ASCII capitals in a field name are not lower-cased here.
- Strings.IsSpace: the whitespace set is the code points listed; Unicode database updates are not tracked.
- Strings.ParseInt: `int()` also accepts underscores between digits and non-ASCII decimal digits. Neither is modelled, so such text is a decode failure here.
- Strings.ParseDecimal: `Decimal()` also accepts exponents, `Infinity`, `NaN` and underscores between digits. They are not modelled and are decode failures here. The sign of a negative zero (`Decimal('-0')`) is not kept either, because the model's decimal is an integer and a scale.
- Strings.ParseYmd: `strptime('%Y%m%d')` also accepts shorter fields such as one-digit months. Only the eight-digit form is modelled, and other shapes are decode failures here.
- Casts.ParseFloat: the floating-point conversion is not modelled. The cell keeps the literal text, and text `float()` would reject is not reported as an error.
- Light.ScanRows: `iter_rows` is a lazy generator. The model computes the whole iteration, and `ScanPrefix` states what a consumer that stops early sees.
- `namedtuple('Row', field_names)` (dbf_light/light.py:123) is not modelled; rows are plain sequences here. `namedtuple` raises ValueError on duplicate names (the `a, a, a` and `a, a_, a` cases that `Light.DedupeCollisions` exhibits), on a name starting with `_`, on an empty name (an all-NUL descriptor), on keywords and on names that are not identifiers. In each case `Dbf.__init__` fails where the model's `Open` succeeds.
- `PrologFoxpro` is left out: the dispatcher rejects its signatures, so it is unreachable. The FoxPro descriptor layout is kept only to state which of two equal names wins.
- `Dbf.open`, `Dbf.__iter__` and the CLI (dbf_light/cli.py) are file opening, context management and presentation.
- Utils.Dirname: `os.path` is modelled as POSIX paths with `/` as the only separator; Windows paths are not modelled.
- The `assert` in `Prolog.__init__` is modelled as always active. Running Python with `-O` would skip it.
- tests/test_module.py depends on binary fixture files that are not part of this model.

=== FILE: bytes.dfy ===
/** Bytes, the integer readings of byte strings, and the read cursor over
    an immutable source. */
module Bytes {
  import opened Outcome

  type byte = x: int | 0 <= x < 256

  function Pow256(n: nat): (r: nat)
    ensures r > 0
  {
    if n == 0 then 1 else 256 * Pow256(n - 1)
  }

  /** Unsigned little-endian reading: the first byte is least significant. */
  function LittleEndian(s: seq<byte>): (r: nat)
    ensures r < Pow256(|s|)
  {
    if |s| == 0 then 0 else s[0] + 256 * LittleEndian(s[1..])
  }

  /** Unsigned big-endian reading: the last byte is least significant. */
  function BigEndian(s: seq<byte>): (r: nat)
    ensures r < Pow256(|s|)
  {
    if |s| == 0 then 0 else 256 * BigEndian(s[..|s| - 1]) + s[|s| - 1]
  }

  function Min(a: int, b: int): int {
    if a <= b then a else b
  }

  /** `fileobj.read(n)` at cursor `pos`: at most `n` bytes, fewer at the end
      of the source, never an error. */
  function Read(src: seq<byte>, pos: nat, n: nat): (r: seq<byte>)
    requires pos <= |src|
    ensures |r| == Min(n, |src| - pos)
    ensures r == src[pos..pos + |r|]
  {
    src[pos..Min(pos + n, |src|)]
  }

  /** A window read from a region is the same window read from the source. */
  lemma {:induction false} SliceOfSlice(src: seq<byte>, pos: nat, n: nat, a: nat, b: nat)
    requires a <= b <= n && pos + n <= |src|
    ensures src[pos..pos + n][a..b] == src[pos + a..pos + b]
  {
    var lhs, rhs := src[pos..pos + n][a..b], src[pos + a..pos + b];
    assert |lhs| == |rhs|;
    forall k | 0 <= k < |lhs|
      ensures lhs[k] == rhs[k]
    {
    }
  }

  /** `SliceOfSlice` for a slice that starts where the outer one does. */
  lemma {:induction false} PrefixOfSlice(src: seq<byte>, pos: nat, n: nat, b: nat)
    requires b <= n && pos + n <= |src|
    ensures src[pos..pos + n][0..b] == src[pos..pos + b]
  {
    SliceOfSlice(src, pos, n, 0, b);
  }

  /** The byte a code page uses for the no-break space U+00A0, the one
      character above 0x7F in the `CODE_PAGES` codecs that `str.strip`
      removes; -1 for a codec without one in the model. */
  function NoBreakByte(codec: Option<string>): int {
    match codec
    case Some(c) =>
      if c == "cp437" || c == "cp850" || c == "cp866" then 0xFF
      else if c == "cp1251" || c == "cp1252" then 0xA0
      else -1
    case None => -1
  }

  /** `.decode(codec)` on one byte. The codecs agree with ASCII below 0x80.
      Above it, the no-break space becomes U+00A0 and every other byte
      stands for a letter or symbol of the code page; its code point is not
      tracked, so it becomes the private-use character 0xE000 plus the byte,
      which keeps distinct bytes distinct and is never whitespace. */
  function DecodeByte(codec: Option<string>, b: byte): char {
    if b < 0x80 then b as char
    else if b == NoBreakByte(codec) then 0xA0 as char
    else (0xE000 + b) as char
  }

  /** `.decode(codec)`: one character per byte. */
  function Decode(codec: Option<string>, s: seq<byte>): (t: string)
    ensures |t| == |s|
    ensures forall i :: 0 <= i < |s| ==> t[i] == DecodeByte(codec, s[i])
  {
    seq(|s|, i requires 0 <= i < |s| => DecodeByte(codec, s[i]))
  }

  predicate IsAscii(t: string) {
    forall i :: 0 <= i < |t| ==> t[i] as int < 0x80
  }

  /** The bytes of ASCII text, one per character. */
  function Encode(t: string): (s: seq<byte>)
    requires IsAscii(t)
    ensures |s| == |t|
    ensures forall i :: 0 <= i < |t| ==> s[i] == t[i] as int
  {
    seq(|t|, i requires 0 <= i < |t| => t[i] as int)
  }

  /** Every codec decodes the bytes of ASCII text back to that text. */
  lemma {:induction false} DecodeEncode(codec: Option<string>, t: string)
    requires IsAscii(t)
    ensures Decode(codec, Encode(t)) == t
  {
    var d := Decode(codec, Encode(t));
    assert |d| == |t|;
    forall i | 0 <= i < |t|
      ensures d[i] == t[i]
    {
    }
  }
}

=== FILE: casts.dfy ===
/** The cast layer: pure functions from a field's raw bytes to a typed cell.
    Every cast first decodes the bytes and strips surrounding whitespace;
    empty text becomes `Null` for dates, numbers, booleans and memos. */
module Casts {
  import opened Bytes
  import opened Outcome
  import opened Strings

  /** A decoded field value. */
  datatype Cell =
    | Null                                   // Python's None
    | Chars(text: string)                    // str
    | Date(year: int, month: int, day: int)  // datetime.date
    | Integer(value: int)                    // int
    | Decimal(unscaled: int, scale: nat)     // exact Decimal: unscaled / 10^scale
    | Float(literal: string)                 // float, kept as its literal
    | Boolean(truth: bool)                   // True / False
    | Raw(bytes: seq<byte>)                  // an unknown type code's bytes

  /** The text every cast starts from: the field's bytes decoded with the
      table's codec, then stripped. */
  function TextOf(codec: Option<string>, raw: seq<byte>): string {
    Strip(Decode(codec, raw))
  }

  /** `parse_string`: the decoded text without surrounding whitespace. */
  function ParseString(codec: Option<string>, raw: seq<byte>): (r: Cell)
    ensures r.Chars?
    ensures IsStripOf(Decode(codec, raw), r.text) && Trimmed(r.text)
  {
    Chars(TextOf(codec, raw))
  }

  /** The bytes `strip` removes once they are decoded: ASCII whitespace and
      the code page's no-break space. */
  predicate SpaceByte(codec: Option<string>, b: byte) {
    9 <= b <= 13 || 28 <= b <= 32 || b == NoBreakByte(codec)
  }

  /** A decoded byte is whitespace exactly when it is a space byte of its
      code page; every other byte above 0x7F is a letter or a symbol. */
  lemma {:induction false} DecodeSpace(codec: Option<string>, b: byte)
    ensures IsSpace(DecodeByte(codec, b)) <==> SpaceByte(codec, b)
  {
  }

  /** A field whose first and last bytes are not space bytes keeps every
      character it decodes to. */
  lemma {:induction false} ParseStringKeepsEnds(codec: Option<string>, raw: seq<byte>)
    requires |raw| > 0 && !SpaceByte(codec, raw[0]) && !SpaceByte(codec, raw[|raw| - 1])
    ensures ParseString(codec, raw) == Chars(Decode(codec, raw))
  {
    var t := Decode(codec, raw);
    DecodeSpace(codec, raw[0]);
    DecodeSpace(codec, raw[|raw| - 1]);
    StripTrimmed(t);
  }

  /** "Москва" in cp866 keeps all six letters, the last of them byte 0xA0. */
  lemma CyrillicKept()
    ensures |ParseString(Some("cp866"), [0x8C, 0xAE, 0xE1, 0xAA, 0xA2, 0xA0]).text| == 6
  {
    var raw: seq<byte> := [0x8C, 0xAE, 0xE1, 0xAA, 0xA2, 0xA0];
    assert NoBreakByte(Some("cp866")) == 0xFF;
    ParseStringKeepsEnds(Some("cp866"), raw);
  }

  /** `parse_date` after decoding: blank is `Null`, YYYYMMDD is that calendar
      day, anything else (a day that does not exist included) is an error. */
  function DateText(text: string): (r: Result<Cell>)
    ensures text == "" <==> r == Ok(Null)
    ensures r.Ok? && r.value != Null ==> r.value.Date? && ValidDate(r.value.year, r.value.month, r.value.day)
    ensures r.Err? ==> r.error == DecodeFailure
  {
    if text == "" then Ok(Null)
    else match ParseYmd(text)
      case Some(d) => Ok(Date(d.year, d.month, d.day))
      case None => Err(DecodeFailure)
  }

  /** A date read from text is the date that text spells: written back as
      YYYYMMDD it is the text again. */
  lemma {:induction false} DateTextExact(text: string)
    requires DateText(text).Ok? && DateText(text).value != Null
    ensures var v := DateText(text).value;
      0 <= v.year < 10000 && 0 <= v.month < 100 && 0 <= v.day < 100 &&
      YmdText(v.year, v.month, v.day) == text
  {
    ParseYmdExact(text);
  }

  /** Text that is not eight digits is no date. */
  lemma {:induction false} DateTextMalformed(text: string)
    requires text != "" && (|text| != 8 || !AllDigits(text))
    ensures DateText(text) == Err(DecodeFailure)
  {
  }

  function ParseDate(codec: Option<string>, raw: seq<byte>): Result<Cell> {
    DateText(TextOf(codec, raw))
  }

  /** `parse_numeric` after decoding: blank is `Null`; with a zero decimal
      count an integer, otherwise an exact decimal. */
  function NumericText(decimalCount: nat, text: string): (r: Result<Cell>)
    ensures text == "" <==> r == Ok(Null)
    ensures r.Ok? && r.value != Null ==> (if decimalCount == 0 then r.value.Integer? else r.value.Decimal?)
    ensures r.Err? ==> r.error == DecodeFailure
  {
    if text == "" then Ok(Null)
    else if decimalCount != 0 then
      match ParseDecimal(text)
      case Some(d) => Ok(Decimal(d.unscaled, d.scale))
      case None => Err(DecodeFailure)
    else
      match ParseInt(text)
      case Some(i) => Ok(Integer(i))
      case None => Err(DecodeFailure)
  }

  /** With no decimals, text that is no integer literal is an error. */
  lemma {:induction false} NumericRejects(t: string)
    requires t != "" && !IntLiteral(t)
    ensures NumericText(0, t) == Err(DecodeFailure)
  {
    ParseIntAccepts(t);
  }

  /** Whatever the decimal count, a character that is neither a digit, a
      sign nor a point makes the text an error. */
  lemma {:induction false} NumericRejectsLetter(decimalCount: nat, t: string, k: nat)
    requires k < |t| && !IsDigit(t[k]) && !IsSign(t[k]) && t[k] != '.'
    ensures NumericText(decimalCount, t) == Err(DecodeFailure)
  {
    if decimalCount == 0 {
      NumericRejects(t);
    } else {
      ParseDecimalRejects(t, k);
    }
  }

  /** With no decimals, digits read at face value, leading zeros included,
      negated after a minus sign. */
  lemma {:induction false} NumericDigits(digits: string)
    requires |digits| > 0 && AllDigits(digits)
    ensures NumericText(0, digits) == Ok(Integer(DigitsValue(digits)))
    ensures NumericText(0, "-" + digits) == Ok(Integer(-(DigitsValue(digits) as int)))
  {
    ParseIntDigits(digits);
    assert |"-" + digits| > 0;
  }

  function ParseNumeric(codec: Option<string>, decimalCount: nat, raw: seq<byte>): Result<Cell> {
    NumericText(decimalCount, TextOf(codec, raw))
  }

  /** `parse_float`: blank is `Null`, otherwise the literal to be converted. */
  function ParseFloat(codec: Option<string>, raw: seq<byte>): (r: Cell)
    ensures TextOf(codec, raw) == "" <==> r == Null
    ensures r != Null ==> r == Float(TextOf(codec, raw))
  {
    var text := TextOf(codec, raw);
    if text == "" then Null else Float(text)
  }

  /** `parse_bool` after decoding: blank or '?' is unknown, 't' or 'y' in
      either case is true, any other text is false. */
  function BoolText(text: string): (r: Cell)
    ensures r == Null <==> Lower(text) == "" || Lower(text) == "?"
    ensures r == Boolean(true) <==> Lower(text) == "t" || Lower(text) == "y"
    ensures r.Null? || r.Boolean?
  {
    var t := Lower(text);
    if t == "" || t == "?" then Null else Boolean(t == "t" || t == "y")
  }

  function ParseBool(codec: Option<string>, raw: seq<byte>): Cell {
    BoolText(TextOf(codec, raw))
  }

  /** `parse_memo` after decoding: blank is `Null`, otherwise the decimal
      block number. */
  function MemoText(text: string): (r: Result<Cell>)
    ensures text == "" <==> r == Ok(Null)
    ensures r.Ok? && r.value != Null ==> r.value.Integer?
    ensures r.Err? ==> r.error == DecodeFailure
  {
    var t := Lower(text);
    if t == "" then Ok(Null)
    else match ParseInt(t)
      case Some(i) => Ok(Integer(i))
      case None => Err(DecodeFailure)
  }

  /** A memo block number must be an integer literal: any other text is an
      error, whatever its case. */
  lemma {:induction false} MemoRejects(t: string)
    requires t != "" && !IntLiteral(t)
    ensures MemoText(t) == Err(DecodeFailure)
  {
    LowerKeepsLiteral(t);
    ParseIntAccepts(Lower(t));
  }

  /** A block number's digits read at face value, leading zeros included. */
  lemma {:induction false} MemoDigits(digits: string)
    requires |digits| > 0 && AllDigits(digits)
    ensures MemoText(digits) == Ok(Integer(DigitsValue(digits)))
  {
    LowerDigits(digits);
    ParseIntDigits(digits);
  }

  lemma Digits007()
    ensures AllDigits("007") && DigitsValue("007") == 7
  {
    assert DigitsValue("0") == 0 by { assert "0"[..0] == ""; }
    assert DigitsValue("00") == 0 by { assert "00"[..1] == "0"; }
    assert "007"[..2] == "00";
  }

  /** "007" is the number 7 in a numeric field and in a memo field. */
  lemma LeadingZeros()
    ensures NumericText(0, "007") == Ok(Integer(7))
    ensures MemoText("007") == Ok(Integer(7))
  {
    Digits007();
    NumericDigits("007");
    MemoDigits("007");
  }

  function ParseMemo(codec: Option<string>, raw: seq<byte>): Result<Cell> {
    MemoText(TextOf(codec, raw))
  }

  /** The entries of `CAST_MAP`. */
  datatype Caster = StringCast | DateCast | NumericCast | FloatCast | BoolCast | MemoCast

  /** `CAST_MAP.get(code)`: exactly the one-byte codes C, D, N, F, L, M. */
  function CastFor(code: seq<byte>): (r: Option<Caster>)
    ensures r.Some? <==> |code| == 1 && code[0] in {67, 68, 70, 76, 77, 78}
  {
    if code == [67] then Some(StringCast)         // 'C'
    else if code == [68] then Some(DateCast)      // 'D'
    else if code == [78] then Some(NumericCast)   // 'N'
    else if code == [70] then Some(FloatCast)     // 'F'
    else if code == [76] then Some(BoolCast)      // 'L'
    else if code == [77] then Some(MemoCast)      // 'M'
    else None
  }

  /** The `CAST_MAP` table: each of the six codes selects its own parser. */
  lemma CastForCodes()
    ensures CastFor([67]) == Some(StringCast) && CastFor([68]) == Some(DateCast)
    ensures CastFor([78]) == Some(NumericCast) && CastFor([70]) == Some(FloatCast)
    ensures CastFor([76]) == Some(BoolCast) && CastFor([77]) == Some(MemoCast)
  {
  }

  /** One `CAST_MAP` entry applied to a field's bytes; only the date, numeric
      and memo casts can fail. */
  function Apply(c: Caster, codec: Option<string>, decimalCount: nat, raw: seq<byte>): (r: Result<Cell>)
    ensures r.Err? ==> r.error == DecodeFailure && c in {DateCast, NumericCast, MemoCast}
  {
    match c
    case StringCast => Ok(ParseString(codec, raw))
    case DateCast => ParseDate(codec, raw)
    case NumericCast => ParseNumeric(codec, decimalCount, raw)
    case FloatCast => Ok(ParseFloat(codec, raw))
    case BoolCast => Ok(ParseBool(codec, raw))
    case MemoCast => ParseMemo(codec, raw)
  }

  // Round trips: the text a writer would store reads back as the value.

  lemma {:induction false} DigitsAscii(s: string)
    requires AllDigits(s)
    ensures IsAscii(s)
    ensures |s| > 0 ==> Trimmed(s)
  {
  }

  lemma {:induction false} TextOfEncoded(codec: Option<string>, t: string)
    requires IsAscii(t) && Trimmed(t)
    ensures TextOf(codec, Encode(t)) == t
  {
    StripTrimmed(t);
    DecodeEncode(codec, t);
  }

  lemma {:induction false} YmdShape(y: nat, m: nat, d: nat)
    requires y < 10000 && m < 100 && d < 100
    ensures IsAscii(YmdText(y, m, d)) && Trimmed(YmdText(y, m, d))
  {
    var t := YmdText(y, m, d);
    assert AllDigits(t) by { AllDigitsConcat(Digits(y, 4), Digits(m, 2)); AllDigitsConcat(Digits(y, 4) + Digits(m, 2), Digits(d, 2)); }
    DigitsAscii(t);
  }

  /** Any valid date written as YYYYMMDD reads back as that date. */
  lemma {:induction false} ParseDateText(codec: Option<string>, y: nat, m: nat, d: nat)
    requires ValidDate(y, m, d)
    ensures IsAscii(YmdText(y, m, d))
    ensures ParseDate(codec, Encode(YmdText(y, m, d))) == Ok(Date(y, m, d))
  {
    YmdShape(y, m, d);
    TextOfEncoded(codec, YmdText(y, m, d));
    ParseYmdText(y, m, d);
  }

  /** A day that does not exist, written as YYYYMMDD, is an error. */
  lemma {:induction false} ParseDateRejects(codec: Option<string>, y: nat, m: nat, d: nat)
    requires y < 10000 && m < 100 && d < 100 && !ValidDate(y, m, d)
    ensures IsAscii(YmdText(y, m, d))
    ensures ParseDate(codec, Encode(YmdText(y, m, d))) == Err(DecodeFailure)
  {
    YmdShape(y, m, d);
    TextOfEncoded(codec, YmdText(y, m, d));
    ParseYmdRejects(y, m, d);
  }

  lemma {:induction false} IntegerCell(t: string, i: int)
    requires ParseInt(t) == Some(i)
    ensures NumericText(0, t) == Ok(Integer(i))
  {
    assert t != "";
  }

  lemma {:induction false} IntTextShape(i: int)
    ensures IsAscii(IntText(i)) && Trimmed(IntText(i))
  {
    if i < 0 {
      SignedShape(NatText(-i));
    } else {
      DigitsAscii(NatText(i));
    }
  }

  /** A minus sign before digits is still ASCII text with no padding. */
  lemma {:induction false} SignedShape(n: string)
    requires |n| > 0 && AllDigits(n)
    ensures IsAscii("-" + n) && Trimmed("-" + n)
  {
    var t := "-" + n;
    assert t[|t| - 1] == n[|n| - 1];
    forall k | 0 <= k < |t|
      ensures t[k] as int < 0x80
    {
      if k > 0 { assert t[k] == n[k - 1]; }
    }
  }

  /** With no decimals, any integer's text reads back as that integer. */
  lemma {:induction false} ParseNumericIntegerText(codec: Option<string>, i: int)
    ensures IsAscii(IntText(i))
    ensures ParseNumeric(codec, 0, Encode(IntText(i))) == Ok(Integer(i))
  {
    var t := IntText(i);
    IntTextShape(i);
    TextOfEncoded(codec, t);
    ParseIntText(i);
    IntegerCell(t, i);
  }

  lemma {:induction false} PointTextShape(a: string, b: string)
    requires AllDigits(a) && AllDigits(b)
    ensures IsAscii(a + "." + b) && Trimmed(a + "." + b)
  {
    var t := a + "." + b;
    forall i | 0 <= i < |t|
      ensures t[i] == '.' || IsDigit(t[i])
    {
      if i < |a| { assert t[i] == a[i]; }
      else if i > |a| { assert t[i] == b[i - |a| - 1]; }
    }
  }

  /** With decimals, the text "a.b" is the decimal with unscaled digits a·b
      and scale |b|. */
  lemma {:induction false} NumericPointText(decimalCount: nat, a: string, b: string)
    requires decimalCount != 0
    requires AllDigits(a) && AllDigits(b) && |a| + |b| > 0
    ensures AllDigits(a + b)
    ensures NumericText(decimalCount, a + "." + b) == Ok(Decimal(DigitsValue(a + b), |b|))
  {
    DecimalPointText(a, b);
    assert a + "." + b != "";
  }

  /** With decimals, "a.b" reads back exactly: the unscaled value is the digit
      string a·b and the scale is |b|. */
  lemma {:induction false} ParseNumericDecimalText(codec: Option<string>, decimalCount: nat, a: string, b: string)
    requires decimalCount != 0
    requires AllDigits(a) && AllDigits(b) && |a| + |b| > 0
    ensures IsAscii(a + "." + b) && AllDigits(a + b)
    ensures ParseNumeric(codec, decimalCount, Encode(a + "." + b)) == Ok(Decimal(DigitsValue(a + b), |b|))
  {
    PointTextShape(a, b);
    TextOfEncoded(codec, a + "." + b);
    NumericPointText(decimalCount, a, b);
  }

  lemma Digits1250()
    ensures AllDigits("1250") && DigitsValue("1250") == 1250
  {
    assert AllDigits("1");
    assert DigitsValue("1") == 1 by { assert "1"[..0] == ""; }
    assert DigitsValue("12") == 12 by { assert "12"[..1] == "1"; }
    assert DigitsValue("125") == 125 by { assert "125"[..2] == "12"; }
    assert "1250"[..3] == "125";
  }

  lemma Bytes1250()
    ensures IsAscii("12.50") && Encode("12.50") == [49, 50, 46, 53, 48]
  {
    var e := Encode("12.50");
    assert e[0] == 49 && e[1] == 50 && e[2] == 46 && e[3] == 53 && e[4] == 48;
  }

  lemma PointText1250()
    ensures "12" + "." + "50" == "12.50" && "12" + "50" == "1250"
  {
  }

  lemma {:induction false} Text1250(codec: Option<string>)
    ensures TextOf(codec, [49, 50, 46, 53, 48]) == "12.50"
  {
    PointText1250();
    PointTextShape("12", "50");
    Bytes1250();
    TextOfEncoded(codec, "12.50");
  }

  lemma Value1250()
    ensures NumericText(2, "12.50") == Ok(Decimal(1250, 2))
  {
    assert AllDigits("12") && AllDigits("50");
    PointText1250();
    Digits1250();
    NumericPointText(2, "12", "50");
  }

  /** A trailing zero is kept: "12.50" is 1250 scaled by 2, not a rounded float. */
  lemma {:induction false} ParseNumericKeepsTrailingZero(codec: Option<string>)
    ensures ParseNumeric(codec, 2, [49, 50, 46, 53, 48]) == Ok(Decimal(1250, 2))
  {
    Text1250(codec);
    Value1250();
  }

  /** Any block number's text reads back as that number. */
  lemma {:induction false} ParseMemoText(codec: Option<string>, n: nat)
    ensures IsAscii(NatText(n))
    ensures ParseMemo(codec, Encode(NatText(n))) == Ok(Integer(n))
  {
    var t := NatText(n);
    DigitsAscii(t);
    TextOfEncoded(codec, t);
    MemoDigits(t);
  }

  lemma {:induction false} AsciiAround(a: string, t: string, b: string)
    requires IsAscii(a) && IsAscii(t) && IsAscii(b)
    ensures IsAscii(a + t + b)
  {
    var u := a + t + b;
    forall i | 0 <= i < |u|
      ensures u[i] as int < 0x80
    {
      if i < |a| { assert u[i] == a[i]; }
      else if i < |a| + |t| { assert u[i] == t[i - |a|]; }
      else { assert u[i] == b[i - |a| - |t|]; }
    }
  }

  /** Whitespace around trimmed text does not reach the casts. */
  lemma {:induction false} TextOfPadded(codec: Option<string>, a: string, t: string, b: string)
    requires IsAscii(a) && IsAscii(t) && IsAscii(b)
    requires AllSpace(a) && AllSpace(b) && Trimmed(t)
    ensures IsAscii(a + t + b)
    ensures TextOf(codec, Encode(a + t + b)) == t
  {
    AsciiAround(a, t, b);
    DecodeEncode(codec, a + t + b);
    StripPadded(a, t, b);
  }

  lemma {:induction false} LowerTrueLetter(c: char)
    requires c == 't' || c == 'T' || c == 'y' || c == 'Y'
    ensures Lower([c]) == "t" || Lower([c]) == "y"
  {
    var lc := LowerChar(c);
    if c == 't' || c == 'T' { assert lc == 't'; } else { assert lc == 'y'; }
    assert Lower([c]) == [lc];
  }

  /** A lone t/T/y/Y, however padded, is true. */
  lemma {:induction false} ParseBoolTrue(codec: Option<string>, a: string, c: char, b: string)
    requires c == 't' || c == 'T' || c == 'y' || c == 'Y'
    requires AllSpace(a) && AllSpace(b) && IsAscii(a) && IsAscii(b)
    ensures IsAscii(a + [c] + b)
    ensures ParseBool(codec, Encode(a + [c] + b)) == Boolean(true)
  {
    TextOfPadded(codec, a, [c], b);
    LowerTrueLetter(c);
  }
}

=== FILE: definitions.dfy ===
/** The classic dBase header ("prolog") and field descriptor, the code-page
    table, and the signature dispatch. */
module Definitions {
  import opened Bytes
  import opened Outcome
  import opened Strings
  import opened Layout
  import opened Casts
  import Utils

  /** `CODE_PAGES`: code-page byte to codec name. */
  const CodePages: map<nat, string> := map[
    1 := "cp437",
    2 := "cp850",
    3 := "cp1252",
    87 := "ascii",
    101 := "cp866",
    201 := "cp1251"
  ]

  /** `Field._definition`: one 32-byte field descriptor. */
  const FieldLayout: seq<Entry> := [
    Entry("name", Str(11)),
    Entry("type", Char),
    Entry("reserved1", Str(4)),
    Entry("len", Char),
    Entry("decimal_count", UByte),
    Entry("reserved2", Str(13)),
    Entry("mdx", Bool)
  ]

  /** `Prolog._definition`: the 32-byte classic header. */
  const PrologLayout: seq<Entry> := [
    Entry("signature", UByte),
    Entry("y", Char),
    Entry("m", Char),
    Entry("d", Char),
    Entry("records", UInt),
    Entry("len_head", UShort),
    Entry("len_rec", UShort),
    Entry("reserved1", Str(2)),
    Entry("incomplete_tr", Bool),
    Entry("encrypted", Bool),
    Entry("reserved2", Str(12)),
    Entry("mdx_exists", Bool),
    Entry("code_page", UByte),
    Entry("reserved3", Str(2))
  ]

  /** `FieldFoxpro._definition`, which declares `reserved2` twice. */
  const FieldFoxproLayout: seq<Entry> := [
    Entry("name", Str(32)),
    Entry("type", Char),
    Entry("len", Char),
    Entry("decimal_count", UByte),
    Entry("reserved1", Str(2)),
    Entry("mdx", Bool),
    Entry("reserved2", Str(2)),
    Entry("autoinc", UInt),
    Entry("reserved2", Str(4))
  ]

  /** The classic descriptor's running offsets, ending at its 32-byte size. */
  lemma FieldOffsets()
    ensures Offset(FieldLayout, 1) == 11
    ensures Offset(FieldLayout, 2) == 12
    ensures Offset(FieldLayout, 3) == 16
    ensures Offset(FieldLayout, 4) == 17
    ensures Offset(FieldLayout, 5) == 18
    ensures Offset(FieldLayout, 6) == 31
    ensures Offset(FieldLayout, 7) == 32
    ensures Size(FieldLayout) == 32
  {
    assert Offset(FieldLayout, 1) == 11;
    assert Offset(FieldLayout, 2) == 12;
    assert Offset(FieldLayout, 3) == 16;
    assert Offset(FieldLayout, 4) == 17;
    assert Offset(FieldLayout, 5) == 18;
    assert Offset(FieldLayout, 6) == 31;
  }

  /** The classic header's running offsets up to the record length. */
  lemma PrologOffsetsLow()
    ensures Offset(PrologLayout, 4) == 4
    ensures Offset(PrologLayout, 5) == 8
    ensures Offset(PrologLayout, 6) == 10
    ensures Offset(PrologLayout, 7) == 12
  {
    assert Offset(PrologLayout, 1) == 1;
    assert Offset(PrologLayout, 2) == 2;
    assert Offset(PrologLayout, 3) == 3;
  }

  /** The classic header's running offsets, ending at its 32-byte size. */
  lemma PrologOffsets()
    ensures Offset(PrologLayout, 4) == 4
    ensures Offset(PrologLayout, 5) == 8
    ensures Offset(PrologLayout, 6) == 10
    ensures Offset(PrologLayout, 12) == 29
    ensures Size(PrologLayout) == 32
  {
    PrologOffsetsLow();
    assert Offset(PrologLayout, 8) == 14;
    assert Offset(PrologLayout, 9) == 15;
    assert Offset(PrologLayout, 10) == 16;
    assert Offset(PrologLayout, 11) == 28;
    assert Offset(PrologLayout, 12) == 29;
    assert Offset(PrologLayout, 13) == 30;
  }

  /** The FoxPro descriptor's running offsets, ending at its 48-byte size. */
  lemma FoxproOffsets()
    ensures Offset(FieldFoxproLayout, 1) == 32
    ensures Offset(FieldFoxproLayout, 2) == 33
    ensures Offset(FieldFoxproLayout, 3) == 34
    ensures Offset(FieldFoxproLayout, 4) == 35
    ensures Offset(FieldFoxproLayout, 5) == 37
    ensures Offset(FieldFoxproLayout, 6) == 38
    ensures Offset(FieldFoxproLayout, 7) == 40
    ensures Offset(FieldFoxproLayout, 8) == 44
    ensures Offset(FieldFoxproLayout, 9) == 48
    ensures Size(FieldFoxproLayout) == 48
  {
    assert Offset(FieldFoxproLayout, 1) == 32;
    assert Offset(FieldFoxproLayout, 2) == 33;
    assert Offset(FieldFoxproLayout, 3) == 34;
    assert Offset(FieldFoxproLayout, 4) == 35;
    assert Offset(FieldFoxproLayout, 5) == 37;
    assert Offset(FieldFoxproLayout, 6) == 38;
    assert Offset(FieldFoxproLayout, 7) == 40;
    assert Offset(FieldFoxproLayout, 8) == 44;
  }

  // Which entries no later entry renames: the precondition of `UnpackUnique`.

  /** Length, first and last character: enough to tell the layouts' names apart. */
  function Sketch(s: string): (nat, char, char)
    requires |s| > 0
  {
    (|s|, s[0], s[|s| - 1])
  }

  lemma FieldNamesDistinct()
    ensures forall i, j :: 0 <= i < j < |FieldLayout| ==> FieldLayout[i].name != FieldLayout[j].name
  {
    forall i, j | 0 <= i < j < |FieldLayout|
      ensures FieldLayout[i].name != FieldLayout[j].name
    {
      assert Sketch(FieldLayout[i].name) != Sketch(FieldLayout[j].name);
    }
  }

  lemma {:induction false} PrologNameLast(i: nat)
    requires i in {0, 4, 5, 6, 12}
    ensures i < |PrologLayout|
    ensures forall j :: i < j < |PrologLayout| ==> PrologLayout[j].name != PrologLayout[i].name
  {
    forall j | i < j < |PrologLayout|
      ensures PrologLayout[j].name != PrologLayout[i].name
    {
      assert Sketch(PrologLayout[j].name) != Sketch(PrologLayout[i].name);
    }
  }

  lemma FieldNameKey()
    ensures KeyAt(FieldLayout, 0, "name", Str(11), 0, 11)
  {
    FieldOffsets();
    FieldNamesDistinct();
  }

  lemma {:induction false} FieldName(raw: seq<byte>)
    requires |raw| == Size(FieldLayout) == 32
    ensures "name" in Unpack(FieldLayout, raw) && Unpack(FieldLayout, raw)["name"] == Chunk(raw[0..11])
  {
    FieldNameKey();
    UnpackChunkKey(FieldLayout, raw, 0, "name", Str(11), 0, 11);
  }

  lemma FieldTypeKey()
    ensures KeyAt(FieldLayout, 1, "type", Char, 11, 12)
  {
    FieldOffsets();
    FieldNamesDistinct();
  }

  lemma {:induction false} FieldType(raw: seq<byte>)
    requires |raw| == Size(FieldLayout) == 32
    ensures "type" in Unpack(FieldLayout, raw) && Unpack(FieldLayout, raw)["type"] == Chunk(raw[11..12])
  {
    FieldTypeKey();
    UnpackChunkKey(FieldLayout, raw, 1, "type", Char, 11, 12);
  }

  lemma FieldLenKey()
    ensures KeyAt(FieldLayout, 3, "len", Char, 16, 17)
  {
    FieldOffsets();
    FieldNamesDistinct();
  }

  lemma {:induction false} FieldLen(raw: seq<byte>)
    requires |raw| == Size(FieldLayout) == 32
    ensures "len" in Unpack(FieldLayout, raw) && Unpack(FieldLayout, raw)["len"] == Chunk(raw[16..17])
  {
    FieldLenKey();
    UnpackChunkKey(FieldLayout, raw, 3, "len", Char, 16, 17);
  }

  lemma FieldDecimalCountKey()
    ensures KeyAt(FieldLayout, 4, "decimal_count", UByte, 17, 18)
  {
    FieldOffsets();
    FieldNamesDistinct();
  }

  lemma {:induction false} FieldDecimalCount(raw: seq<byte>)
    requires |raw| == Size(FieldLayout) == 32
    ensures "decimal_count" in Unpack(FieldLayout, raw) && Unpack(FieldLayout, raw)["decimal_count"] == Num(raw[17])
  {
    FieldDecimalCountKey();
    UnpackByteKey(FieldLayout, raw, 4, "decimal_count", 17, 18);
  }

  lemma PrologSignatureKey()
    ensures KeyAt(PrologLayout, 0, "signature", UByte, 0, 1)
  {
    PrologOffsets();
    PrologNameLast(0);
  }

  lemma {:induction false} PrologSignature(raw: seq<byte>)
    requires |raw| == Size(PrologLayout) == 32
    ensures "signature" in Unpack(PrologLayout, raw) && Unpack(PrologLayout, raw)["signature"] == Num(raw[0])
  {
    PrologSignatureKey();
    UnpackByteKey(PrologLayout, raw, 0, "signature", 0, 1);
  }

  lemma PrologRecordsKey()
    ensures KeyAt(PrologLayout, 4, "records", UInt, 4, 8)
  {
    PrologOffsets();
    PrologNameLast(4);
  }

  lemma {:induction false} PrologRecords(raw: seq<byte>)
    requires |raw| == Size(PrologLayout) == 32
    ensures "records" in Unpack(PrologLayout, raw) && Unpack(PrologLayout, raw)["records"] == Num(LittleEndian(raw[4..8]))
  {
    PrologRecordsKey();
    UnpackIntKey(PrologLayout, raw, 4, "records", UInt, 4, 8);
  }

  lemma PrologLenHeadKey()
    ensures KeyAt(PrologLayout, 5, "len_head", UShort, 8, 10)
  {
    PrologOffsets();
    PrologNameLast(5);
  }

  lemma {:induction false} PrologLenHead(raw: seq<byte>)
    requires |raw| == Size(PrologLayout) == 32
    ensures "len_head" in Unpack(PrologLayout, raw) && Unpack(PrologLayout, raw)["len_head"] == Num(LittleEndian(raw[8..10]))
  {
    PrologLenHeadKey();
    UnpackIntKey(PrologLayout, raw, 5, "len_head", UShort, 8, 10);
  }

  lemma PrologLenRecKey()
    ensures KeyAt(PrologLayout, 6, "len_rec", UShort, 10, 12)
  {
    PrologOffsets();
    PrologNameLast(6);
  }

  lemma {:induction false} PrologLenRec(raw: seq<byte>)
    requires |raw| == Size(PrologLayout) == 32
    ensures "len_rec" in Unpack(PrologLayout, raw) && Unpack(PrologLayout, raw)["len_rec"] == Num(LittleEndian(raw[10..12]))
  {
    PrologLenRecKey();
    UnpackIntKey(PrologLayout, raw, 6, "len_rec", UShort, 10, 12);
  }

  lemma PrologCodePageKey()
    ensures KeyAt(PrologLayout, 12, "code_page", UByte, 29, 30)
  {
    PrologOffsets();
    PrologNameLast(12);
  }

  lemma {:induction false} PrologCodePage(raw: seq<byte>)
    requires |raw| == Size(PrologLayout) == 32
    ensures "code_page" in Unpack(PrologLayout, raw) && Unpack(PrologLayout, raw)["code_page"] == Num(raw[29])
  {
    PrologCodePageKey();
    UnpackByteKey(PrologLayout, raw, 12, "code_page", 29, 30);
  }

  lemma FieldSize()
    ensures Size(FieldLayout) == 32
  {
    FieldOffsets();
  }

  /** Where the classic descriptor keeps its fields: name in bytes 0-10, type
      at 11, length at 16, decimal count at 17. */
  lemma {:induction false} FieldLayoutFields(raw: seq<byte>)
    requires |raw| == Size(FieldLayout) == 32
    ensures var m := Unpack(FieldLayout, raw);
      && "name" in m && m["name"] == Chunk(raw[0..11])
      && "type" in m && m["type"] == Chunk(raw[11..12])
      && "len" in m && m["len"] == Chunk(raw[16..17])
      && "decimal_count" in m && m["decimal_count"] == Num(raw[17])
  {
    FieldName(raw);
    FieldType(raw);
    FieldLen(raw);
    FieldDecimalCount(raw);
  }

  /** Where the classic header keeps its fields: records a u32 at 4, header
      length a u16 at 8, record length a u16 at 10, code page at 29. */
  lemma {:induction false} PrologLayoutFields(raw: seq<byte>)
    requires |raw| == Size(PrologLayout) == 32
    ensures var m := Unpack(PrologLayout, raw);
      && "signature" in m && m["signature"] == Num(raw[0])
      && "records" in m && m["records"] == Num(LittleEndian(raw[4..8]))
      && "len_head" in m && m["len_head"] == Num(LittleEndian(raw[8..10]))
      && "len_rec" in m && m["len_rec"] == Num(LittleEndian(raw[10..12]))
      && "code_page" in m && m["code_page"] == Num(raw[29])
  {
    PrologSignature(raw);
    PrologRecords(raw);
    PrologLenHead(raw);
    PrologLenRec(raw);
    PrologCodePage(raw);
  }

  lemma {:induction false} FieldNameAt(src: seq<byte>, pos: nat)
    requires pos + 32 <= |src|
    ensures Size(FieldLayout) == 32
    ensures var m := Unpack(FieldLayout, src[pos..pos + 32]);
      "name" in m && m["name"] == Chunk(src[pos..pos + 11])
  {
    FieldSize();
    FieldName(src[pos..pos + 32]);
    PrefixOfSlice(src, pos, 32, 11);
  }

  lemma {:induction false} FieldTypeAt(src: seq<byte>, pos: nat)
    requires pos + 32 <= |src|
    ensures Size(FieldLayout) == 32
    ensures var m := Unpack(FieldLayout, src[pos..pos + 32]);
      "type" in m && m["type"] == Chunk(src[pos + 11..pos + 12])
  {
    FieldSize();
    FieldType(src[pos..pos + 32]);
    SliceOfSlice(src, pos, 32, 11, 12);
  }

  lemma {:induction false} FieldLenAt(src: seq<byte>, pos: nat)
    requires pos + 32 <= |src|
    ensures Size(FieldLayout) == 32
    ensures var m := Unpack(FieldLayout, src[pos..pos + 32]);
      "len" in m && m["len"] == Chunk(src[pos + 16..pos + 17])
  {
    FieldSize();
    FieldLen(src[pos..pos + 32]);
    SliceOfSlice(src, pos, 32, 16, 17);
  }

  lemma {:induction false} FieldDecimalCountAt(src: seq<byte>, pos: nat)
    requires pos + 32 <= |src|
    ensures Size(FieldLayout) == 32
    ensures var m := Unpack(FieldLayout, src[pos..pos + 32]);
      "decimal_count" in m && m["decimal_count"] == Num(src[pos + 17])
  {
    FieldSize();
    FieldDecimalCount(src[pos..pos + 32]);
  }

  /** `FieldLayoutFields` for the 32 bytes at `pos`, stated in file positions. */
  lemma {:induction false} FieldBytes(src: seq<byte>, pos: nat)
    requires pos + 32 <= |src|
    ensures Size(FieldLayout) == 32
    ensures var m := Unpack(FieldLayout, src[pos..pos + 32]);
      && "name" in m && m["name"] == Chunk(src[pos..pos + 11])
      && "type" in m && m["type"] == Chunk(src[pos + 11..pos + 12])
      && "len" in m && m["len"] == Chunk(src[pos + 16..pos + 17])
      && "decimal_count" in m && m["decimal_count"] == Num(src[pos + 17])
  {
    FieldSize();
    FieldNameAt(src, pos);
    FieldTypeAt(src, pos);
    FieldLenAt(src, pos);
    FieldDecimalCountAt(src, pos);
  }

  /** `PrologLayoutFields` for the 32 bytes at `pos`, stated in file positions. */
  lemma {:induction false} PrologBytes(src: seq<byte>, pos: nat)
    requires pos + 32 <= |src|
    ensures Size(PrologLayout) == 32
    ensures var m := Unpack(PrologLayout, src[pos..pos + 32]);
      && "signature" in m && m["signature"] == Num(src[pos])
      && "records" in m && m["records"] == Num(LittleEndian(src[pos + 4..pos + 8]))
      && "len_head" in m && m["len_head"] == Num(LittleEndian(src[pos + 8..pos + 10]))
      && "len_rec" in m && m["len_rec"] == Num(LittleEndian(src[pos + 10..pos + 12]))
      && "code_page" in m && m["code_page"] == Num(src[pos + 29])
  {
    PrologOffsets();
    var raw := src[pos..pos + 32];
    PrologLayoutFields(raw);
    SliceOfSlice(src, pos, 32, 4, 8);
    SliceOfSlice(src, pos, 32, 8, 10);
    SliceOfSlice(src, pos, 32, 10, 12);
  }

  lemma FoxproReservedKey()
    ensures KeyAt(FieldFoxproLayout, 8, "reserved2", Str(4), 44, 48)
  {
    FoxproOffsets();
  }

  /** A repeated name keeps its later value: FoxPro's second `reserved2`
      (bytes 44-47) shadows the first (bytes 38-39). */
  lemma {:induction false} FoxproLaterReservedWins(raw: seq<byte>)
    requires |raw| == Size(FieldFoxproLayout) == 48
    ensures "reserved2" in Unpack(FieldFoxproLayout, raw)
    ensures Unpack(FieldFoxproLayout, raw)["reserved2"] == Chunk(raw[44..48])
  {
    FoxproReservedKey();
    UnpackChunkKey(FieldFoxproLayout, raw, 8, "reserved2", Str(4), 44, 48);
  }

  // ---- Field ----

  /** The entries `Field.__init__` reads from the unpacked map. */
  predicate RawField(data: map<string, Value>)
  {
    && "name" in data && data["name"].Chunk?
    && "type" in data && data["type"].Chunk?
    && "len" in data && data["len"].Chunk?
    && "decimal_count" in data && data["decimal_count"].Num?
  }

  /** A field descriptor: the unpacked map plus the attributes derived from it. */
  datatype Field = Field(
    data: map<string, Value>,
    name: string,
    typ: seq<byte>,
    len: nat,
    encoding: Option<string>)

  /** The attributes agree with the map: `name` mirrors `data['name']`, and
      the map still holds the type and the decimal count `cast` reads. */
  predicate Synced(f: Field)
  {
    && "name" in f.data && f.data["name"] == Txt(f.name)
    && "type" in f.data && f.data["type"] == Chunk(f.typ)
    && "decimal_count" in f.data && f.data["decimal_count"].Num?
  }

  const Nul: char := 0 as char

  /** `Field.__init__`: the name decoded with only its trailing NULs removed,
      the length read as a big-endian integer from the `len` bytes. */
  function NewField(data: map<string, Value>): (r: Result<Field>)
    requires RawField(data)
    ensures r.Err? <==> |data["len"].bytes| == 0
    ensures r.Err? ==> r.error == DecodeFailure
    ensures r.Ok? ==> Synced(r.value) && r.value.encoding == None
    ensures r.Ok? ==> r.value.typ == data["type"].bytes
    ensures r.Ok? ==> r.value.len == BigEndian(data["len"].bytes) < Pow256(|data["len"].bytes|)
    ensures r.Ok? ==> var raw, n := Decode(None, data["name"].bytes), r.value.name;
      && |n| <= |raw| && n == raw[..|n|]
      && (forall k :: |n| <= k < |raw| ==> raw[k] == Nul)
      && (|n| > 0 ==> n[|n| - 1] != Nul)
  {
    var len :- Utils.BytesToInt(data["len"].bytes);
    var name := RStrip(Decode(None, data["name"].bytes), Nul);
    Ok(Field(data["name":= Txt(name)], name, data["type"].bytes, len, None))
  }

  /** `set_name`: the attribute and the map entry change together, nothing else does. */
  function SetName(f: Field, n: string): (r: Field)
    ensures r.name == n && "name" in r.data && r.data["name"] == Txt(n)
    ensures r.data.Keys == f.data.Keys + {"name"}
    ensures forall k :: k in f.data && k != "name" ==> r.data[k] == f.data[k]
    ensures r.typ == f.typ && r.len == f.len && r.encoding == f.encoding
    ensures Synced(f) ==> Synced(r)
  {
    f.(data := f.data["name" := Txt(n)], name := n)
  }

  /** The name `from_file` settles on: trailing NULs gone, lower-cased on request. */
  function DescriptorName(raw: seq<byte>, lower: bool): string {
    var name := RStrip(Decode(None, raw), Nul);
    if lower then Lower(name) else name
  }

  /** What `from_file` makes of an unpacked map: the field built, renamed to
      its lower-case form on request, and given the table's encoding. */
  function FieldOf(data: map<string, Value>, lower: bool, encoding: Option<string>): (r: Result<Field>)
    requires RawField(data)
    ensures r.Err? <==> |data["len"].bytes| == 0
    ensures r.Ok? ==> var f := r.value;
      && Synced(f)
      && f.name == DescriptorName(data["name"].bytes, lower)
      && f.typ == data["type"].bytes
      && f.data["decimal_count"] == data["decimal_count"]
      && f.len == BigEndian(data["len"].bytes)
      && (|data["len"].bytes| == 1 ==> f.len == data["len"].bytes[0])
      && f.encoding == encoding
  {
    var f :- NewField(data);
    var named := if lower then SetName(f, Lower(f.name)) else f;
    if |data["len"].bytes| == 1 then
      assert data["len"].bytes == [data["len"].bytes[0]];
      Utils.BytesToIntByte(data["len"].bytes[0]);
      Ok(named.(encoding := encoding))
    else
      Ok(named.(encoding := encoding))
  }

  /** `Field.from_file`: one 32-byte descriptor at `pos`. */
  function FieldFromFile(src: seq<byte>, pos: nat, lower: bool, encoding: Option<string>): (r: Result<Parsed<Field>>)
    requires pos <= |src|
    ensures r.Ok? <==> pos + 32 <= |src|
    ensures r.Err? ==> r.error == TruncatedSource
    ensures r.Ok? ==> r.value.next == pos + 32
    ensures r.Ok? ==> var f := r.value.value;
      && Synced(f)
      && f.name == DescriptorName(src[pos..pos + 11], lower)
      && f.typ == src[pos + 11..pos + 12]
      && f.len == src[pos + 16]
      && f.data["decimal_count"] == Num(src[pos + 17])
      && f.encoding == encoding
  {
    FieldOffsets();
    if pos + 32 > |src| then Err(TruncatedSource)
    else
      FieldBytes(src, pos);
      var dec := FromFile(FieldLayout, src, pos).value;
      var f := FieldOf(dec.data, lower, encoding).value;
      Ok(Parsed(f, dec.next))
  }

  /** `Field.cast`: the `CAST_MAP` entry for the type code, or the raw bytes
      unchanged for any other code. */
  function Cast(f: Field, raw: seq<byte>): (r: Result<Cell>)
    requires Synced(f)
    ensures CastFor(f.typ).None? ==> r == Ok(Raw(raw))
    ensures CastFor(f.typ).Some? ==> r == Apply(CastFor(f.typ).value, f.encoding, f.data["decimal_count"].n, raw)
    ensures r.Err? ==> r.error == DecodeFailure
  {
    match CastFor(f.data["type"].bytes)
    case None => Ok(Raw(raw))
    case Some(c) => Apply(c, f.encoding, f.data["decimal_count"].n, raw)
  }

  /** `CAST_MAP` seen through `cast`: each type code runs its own parser on
      the raw bytes, with the field's codec and decimal count. */
  lemma {:induction false} CastTable(f: Field, raw: seq<byte>)
    requires Synced(f)
    ensures f.typ == [67] ==> Cast(f, raw) == Ok(ParseString(f.encoding, raw))
    ensures f.typ == [68] ==> Cast(f, raw) == ParseDate(f.encoding, raw)
    ensures f.typ == [78] ==> Cast(f, raw) == ParseNumeric(f.encoding, f.data["decimal_count"].n, raw)
    ensures f.typ == [70] ==> Cast(f, raw) == Ok(ParseFloat(f.encoding, raw))
    ensures f.typ == [76] ==> Cast(f, raw) == Ok(ParseBool(f.encoding, raw))
    ensures f.typ == [77] ==> Cast(f, raw) == ParseMemo(f.encoding, raw)
  {
    CastForCodes();
    var dc := f.data["decimal_count"].n;
    if f.typ == [67] {
      assert Cast(f, raw) == Apply(StringCast, f.encoding, dc, raw);
    } else if f.typ == [68] {
      assert Cast(f, raw) == Apply(DateCast, f.encoding, dc, raw);
    } else if f.typ == [78] {
      assert Cast(f, raw) == Apply(NumericCast, f.encoding, dc, raw);
    } else if f.typ == [70] {
      assert Cast(f, raw) == Apply(FloatCast, f.encoding, dc, raw);
    } else if f.typ == [76] {
      assert Cast(f, raw) == Apply(BoolCast, f.encoding, dc, raw);
    } else if f.typ == [77] {
      assert Cast(f, raw) == Apply(MemoCast, f.encoding, dc, raw);
    }
  }

  // ---- Prolog ----

  /** The entries `Prolog.__init__` and `encoding` read from the unpacked map. */
  predicate RawProlog(data: map<string, Value>)
  {
    && "signature" in data && data["signature"].Num?
    && "records" in data && data["records"].Num?
    && "len_head" in data && data["len_head"].Num?
    && "code_page" in data && data["code_page"].Num?
  }

  /** The decoded header; `fieldsCount` is negative when the header length is
      1, the one value below 33 that passes the divisibility check. */
  datatype Prolog = Prolog(data: map<string, Value>, recordsCount: nat, fieldsCount: int, signature: nat)

  /** The header length leaves room for the 32-byte header, a whole number of
      32-byte descriptors, and the terminator byte. */
  predicate WholeDescriptors(lenHead: int) {
    (lenHead - 33) % 32 == 0
  }

  /** `Prolog.__init__`: the field count is `(len_head - 33) / 32`, and a
      header length for which that is not whole is rejected. */
  function NewProlog(data: map<string, Value>): (r: Result<Prolog>)
    requires RawProlog(data)
    ensures r.Ok? <==> WholeDescriptors(data["len_head"].n)
    ensures r.Err? ==> r.error == InconsistentHeader
    ensures r.Ok? ==> 33 + 32 * r.value.fieldsCount == data["len_head"].n
    ensures r.Ok? ==> r.value.recordsCount == data["records"].n
    ensures r.Ok? ==> r.value.signature == data["signature"].n && RawProlog(r.value.data)
  {
    var excess := data["len_head"].n - 33;
    if !WholeDescriptors(data["len_head"].n) then Err(InconsistentHeader)
    else Ok(Prolog(data, data["records"].n, excess / 32, data["signature"].n))
  }

  /** `Prolog.encoding`: the codec named for the code-page byte, if any. */
  function Encoding(p: Prolog): (r: Option<string>)
    requires RawProlog(p.data)
    ensures r.Some? <==> p.data["code_page"].n in {1, 2, 3, 87, 101, 201}
    ensures r.Some? ==> r.value == CodePages[p.data["code_page"].n]
  {
    var code := p.data["code_page"].n;
    if code in CodePages then Some(CodePages[code]) else None
  }

  /** The `CODE_PAGES` table, code by code: each code page names its own codec. */
  lemma {:induction false} EncodingNames(p: Prolog)
    requires RawProlog(p.data)
    ensures p.data["code_page"].n == 1 ==> Encoding(p) == Some("cp437")
    ensures p.data["code_page"].n == 2 ==> Encoding(p) == Some("cp850")
    ensures p.data["code_page"].n == 3 ==> Encoding(p) == Some("cp1252")
    ensures p.data["code_page"].n == 87 ==> Encoding(p) == Some("ascii")
    ensures p.data["code_page"].n == 101 ==> Encoding(p) == Some("cp866")
    ensures p.data["code_page"].n == 201 ==> Encoding(p) == Some("cp1251")
  {
  }

  /** `Prolog.from_file`: the 32-byte header at `pos`. */
  function ReadProlog(src: seq<byte>, pos: nat): (r: Result<Parsed<Prolog>>)
    requires pos <= |src|
    ensures pos + 32 > |src| ==> r == Err(TruncatedSource)
    ensures pos + 32 <= |src| ==>
      (r.Ok? <==> WholeDescriptors(LittleEndian(src[pos + 8..pos + 10])))
    ensures r.Err? && pos + 32 <= |src| ==> r.error == InconsistentHeader
    ensures r.Ok? ==> var p := r.value.value;
      && pos + 32 <= |src| && r.value.next == pos + 32
      && RawProlog(p.data)
      && p.signature == src[pos]
      && p.recordsCount == LittleEndian(src[pos + 4..pos + 8])
      && 33 + 32 * p.fieldsCount == LittleEndian(src[pos + 8..pos + 10])
      && p.data["code_page"] == Num(src[pos + 29])
  {
    if pos + 32 > |src| then Err(TruncatedSource)
    else
      PrologBytes(src, pos);
      var dec := FromFile(PrologLayout, src, pos).value;
      match NewProlog(dec.data)
      case Err(e) => Err(e)
      case Ok(p) => Ok(Parsed(p, dec.next))
  }

  // ---- Dispatch ----

  /** The header and descriptor layouts a signature selects. */
  datatype Format = Format(header: seq<Entry>, field: seq<Entry>)

  /** `get_format_description`: the signature byte at `pos` picks the layout
      and the cursor goes back to the start of the file. */
  function FormatDescription(src: seq<byte>, pos: nat): (r: Result<Parsed<Format>>)
    requires pos <= |src|
    ensures r.Ok? <==> pos < |src| && src[pos] !in {48, 49}
    ensures pos == |src| ==> r == Err(TruncatedSource)
    ensures pos < |src| && src[pos] in {48, 49} ==> r == Err(UnsupportedVariant)
    ensures r.Ok? ==> r.value == Parsed(Format(PrologLayout, FieldLayout), 0)
  {
    var sig := Read(src, pos, 1);
    if |sig| < 1 then Err(TruncatedSource)
    else if sig[0] == 48 || sig[0] == 49 then Err(UnsupportedVariant)
    else Ok(Parsed(Format(PrologLayout, FieldLayout), 0))
  }
}

=== FILE: layout.dfy ===
/** The generic fixed-layout decoder: an ordered list of (name, struct code)
    pairs read with the `<` prefix, so widths simply add up and multi-byte
    integers are little-endian. */
module Layout {
  import opened Bytes
  import opened Outcome

  /** A struct format code: `Str(n)` is `ns`, then `c`, `B`, `?`, `H`, `I`. */
  datatype Code = Str(n: nat) | Char | UByte | Bool | UShort | UInt

  datatype Entry = Entry(name: string, code: Code)

  /** What `struct.unpack` yields for one code; `Txt` is the decoded text a
      field descriptor stores in place of its raw name. */
  datatype Value = Chunk(bytes: seq<byte>) | Num(n: nat) | Flag(b: bool) | Txt(s: string)

  /** Standard size of one code. */
  function Width(c: Code): nat {
    match c
    case Str(n) => n
    case Char => 1
    case UByte => 1
    case Bool => 1
    case UShort => 2
    case UInt => 4
  }

  /** Where entry `i` starts: the widths of the entries before it. */
  function Offset(d: seq<Entry>, i: nat): nat
    requires i <= |d|
  {
    if i == 0 then 0 else Offset(d, i - 1) + Width(d[i - 1].code)
  }

  /** `struct.calcsize('<' + rules)`: with no alignment padding, the plain sum
      of the widths, which is where an entry past the last one would start. */
  function Size(d: seq<Entry>): nat {
    Offset(d, |d|)
  }

  /** Offsets never decrease, so every entry ends within the total size. */
  lemma {:induction false} OffsetMono(d: seq<Entry>, i: nat, j: nat)
    requires i <= j <= |d|
    ensures Offset(d, i) <= Offset(d, j)
    decreases j
  {
    if i < j {
      OffsetMono(d, i, j - 1);
    }
  }

  /** Dropping the first entry shifts every later offset down by its width. */
  lemma {:induction false} OffsetCons(d: seq<Entry>, i: nat)
    requires 0 < i <= |d|
    ensures Offset(d, i) == Width(d[0].code) + Offset(d[1..], i - 1)
  {
    if i > 1 {
      OffsetCons(d, i - 1);
      assert d[1..][i - 2] == d[i - 1];
    }
  }

  /** The size of a non-empty layout is its first width plus the rest. */
  lemma {:induction false} SizeCons(d: seq<Entry>)
    requires |d| > 0
    ensures Size(d) == Width(d[0].code) + Size(d[1..])
  {
    OffsetCons(d, |d|);
  }

  /** Without alignment padding, concatenating layouts adds their sizes. */
  lemma {:induction false} SizeConcat(d1: seq<Entry>, d2: seq<Entry>)
    ensures Size(d1 + d2) == Size(d1) + Size(d2)
    decreases |d1|
  {
    if |d1| == 0 {
      assert d1 + d2 == d2;
    } else {
      SizeCons(d1);
      SizeCons(d1 + d2);
      assert (d1 + d2)[1..] == d1[1..] + d2;
      SizeConcat(d1[1..], d2);
    }
  }

  /** `_names`: one name per entry, in declaration order. */
  function Names(d: seq<Entry>): (r: seq<string>)
    ensures |r| == |d|
    ensures forall i :: 0 <= i < |d| ==> r[i] == d[i].name
  {
    seq(|d|, i requires 0 <= i < |d| => d[i].name)
  }

  /** One code read from exactly its width of bytes. */
  function DecodeOne(c: Code, chunk: seq<byte>): Value
    requires |chunk| == Width(c)
  {
    match c
    case Str(_) => Chunk(chunk)
    case Char => Chunk(chunk)
    case UByte => Num(chunk[0])
    case Bool => Flag(chunk[0] != 0)
    case UShort => Num(LittleEndian(chunk))
    case UInt => Num(LittleEndian(chunk))
  }

  /** Entry `i`'s value, decoded from exactly its own bytes of the record. */
  function ValueAt(d: seq<Entry>, raw: seq<byte>, i: nat): Value
    requires |raw| == Size(d) && i < |d|
  {
    OffsetMono(d, i + 1, |d|);
    DecodeOne(d[i].code, raw[Offset(d, i)..Offset(d, i + 1)])
  }

  /** `struct.unpack`: one value per entry, in declaration order. */
  function UnpackSeq(d: seq<Entry>, raw: seq<byte>): (r: seq<Value>)
    requires |raw| == Size(d)
    ensures |r| == |d|
  {
    seq(|d|, i requires 0 <= i < |d| => ValueAt(d, raw, i))
  }

  /** Entry `i` is decoded from the bytes at its own offset. */
  lemma {:induction false} UnpackSeqAt(d: seq<Entry>, raw: seq<byte>, i: nat)
    requires |raw| == Size(d) && i < |d|
    ensures Offset(d, i + 1) <= |raw|
    ensures Offset(d, i + 1) == Offset(d, i) + Width(d[i].code)
    ensures UnpackSeq(d, raw)[i] == DecodeOne(d[i].code, raw[Offset(d, i)..Offset(d, i + 1)])
  {
    OffsetMono(d, i + 1, |d|);
  }

  /** No later key equals the key at `i`. */
  predicate LastOccurrence(ks: seq<string>, i: nat)
    requires i < |ks|
  {
    forall j :: i < j < |ks| ==> ks[j] != ks[i]
  }

  /** `dict(zip(ks, vs))`: every key is bound, and a repeated key keeps the
      value at its last position. */
  function ZipMap<V>(ks: seq<string>, vs: seq<V>): (r: map<string, V>)
    requires |ks| == |vs|
    ensures forall k :: k in r <==> k in ks
    ensures forall i :: 0 <= i < |ks| && LastOccurrence(ks, i) ==> r[ks[i]] == vs[i]
  {
    if |ks| == 0 then map[]
    else
      var n := |ks| - 1;
      var m := ZipMap(ks[..n], vs[..n]);
      ZipMapStep(ks, vs, m);
      m[ks[n] := vs[n]]
  }

  lemma {:induction false} ZipMapStep<V>(ks: seq<string>, vs: seq<V>, m: map<string, V>)
    requires |ks| == |vs| > 0
    requires forall k :: k in m <==> k in ks[..|ks| - 1]
    requires var pks, pvs := ks[..|ks| - 1], vs[..|ks| - 1];
      forall i :: 0 <= i < |pks| && LastOccurrence(pks, i) ==> m[pks[i]] == pvs[i]
    ensures forall k :: k in m[ks[|ks| - 1] := vs[|ks| - 1]] <==> k in ks
    ensures forall i :: 0 <= i < |ks| && LastOccurrence(ks, i) ==> m[ks[|ks| - 1] := vs[|ks| - 1]][ks[i]] == vs[i]
  {
    var n := |ks| - 1;
    var r := m[ks[n] := vs[n]];
    assert ks == ks[..n] + [ks[n]];
    forall i | 0 <= i < |ks| && LastOccurrence(ks, i)
      ensures r[ks[i]] == vs[i]
    {
      if i < n {
        assert ks[n] != ks[i];
        assert ks[..n][i] == ks[i] && vs[..n][i] == vs[i];
        assert LastOccurrence(ks[..n], i);
      }
    }
  }

  /** `_unpack`: names zipped with the unpacked values. */
  function Unpack(d: seq<Entry>, raw: seq<byte>): map<string, Value>
    requires |raw| == Size(d)
  {
    ZipMap(Names(d), UnpackSeq(d, raw))
  }

  /** The value stored under an entry's name is read at that entry's offset,
      unless a later entry reuses the name. */
  lemma {:induction false} UnpackAt(d: seq<Entry>, raw: seq<byte>, i: nat)
    requires |raw| == Size(d) && i < |d|
    requires LastOccurrence(Names(d), i)
    ensures Offset(d, i + 1) <= |raw|
    ensures Offset(d, i + 1) == Offset(d, i) + Width(d[i].code)
    ensures d[i].name in Unpack(d, raw)
    ensures Unpack(d, raw)[d[i].name] == DecodeOne(d[i].code, raw[Offset(d, i)..Offset(d, i + 1)])
  {
    UnpackSeqAt(d, raw, i);
  }

  /** `UnpackAt` for a name no later entry declares again. */
  lemma {:induction false} UnpackUnique(d: seq<Entry>, raw: seq<byte>, i: nat)
    requires |raw| == Size(d) && i < |d|
    requires forall j :: i < j < |d| ==> d[j].name != d[i].name
    ensures Offset(d, i + 1) <= |raw|
    ensures Offset(d, i + 1) == Offset(d, i) + Width(d[i].code)
    ensures d[i].name in Unpack(d, raw)
    ensures Unpack(d, raw)[d[i].name] == DecodeOne(d[i].code, raw[Offset(d, i)..Offset(d, i + 1)])
  {
    UnpackAt(d, raw, i);
  }

  /** Entry `i` of `d` is `key` with code `c` in bytes `lo` up to `hi`, and
      no later entry reuses the name. */
  predicate KeyAt(d: seq<Entry>, i: nat, key: string, c: Code, lo: nat, hi: nat)
  {
    && i < |d| && d[i] == Entry(key, c) && Offset(d, i) == lo && Offset(d, i + 1) == hi
    && forall j :: i < j < |d| ==> d[j].name != key
  }

  /** The value under a unique key is decoded from the key's own bytes. */
  lemma {:induction false} UnpackKey(d: seq<Entry>, raw: seq<byte>, i: nat, key: string, c: Code, lo: nat, hi: nat)
    requires |raw| == Size(d) && KeyAt(d, i, key, c, lo, hi)
    ensures lo <= hi <= |raw| && hi - lo == Width(c)
    ensures key in Unpack(d, raw)
    ensures Unpack(d, raw)[key] == DecodeOne(c, raw[lo..hi])
  {
    UnpackUnique(d, raw, i);
  }

  /** `UnpackKey` for a one-byte unsigned code. */
  lemma {:induction false} UnpackByteKey(d: seq<Entry>, raw: seq<byte>, i: nat, key: string, lo: nat, hi: nat)
    requires |raw| == Size(d) && KeyAt(d, i, key, UByte, lo, hi)
    ensures lo < |raw| && key in Unpack(d, raw) && Unpack(d, raw)[key] == Num(raw[lo])
  {
    UnpackKey(d, raw, i, key, UByte, lo, hi);
  }

  /** `UnpackKey` for a `?` code: true exactly when the byte is nonzero. */
  lemma {:induction false} UnpackFlagKey(d: seq<Entry>, raw: seq<byte>, i: nat, key: string, lo: nat, hi: nat)
    requires |raw| == Size(d) && KeyAt(d, i, key, Bool, lo, hi)
    ensures lo < |raw| && key in Unpack(d, raw)
    ensures Unpack(d, raw)[key] == Flag(raw[lo] != 0)
    ensures Unpack(d, raw)[key] == Flag(true) <==> raw[lo] != 0
  {
    UnpackKey(d, raw, i, key, Bool, lo, hi);
  }

  /** `UnpackKey` for a two- or four-byte little-endian code. */
  lemma {:induction false} UnpackIntKey(d: seq<Entry>, raw: seq<byte>, i: nat, key: string, c: Code, lo: nat, hi: nat)
    requires |raw| == Size(d) && KeyAt(d, i, key, c, lo, hi) && (c == UShort || c == UInt)
    ensures lo <= hi <= |raw| && key in Unpack(d, raw)
    ensures Unpack(d, raw)[key] == Num(LittleEndian(raw[lo..hi]))
  {
    UnpackKey(d, raw, i, key, c, lo, hi);
  }

  /** `UnpackKey` for a string or `c` code: the raw bytes. */
  lemma {:induction false} UnpackChunkKey(d: seq<Entry>, raw: seq<byte>, i: nat, key: string, c: Code, lo: nat, hi: nat)
    requires |raw| == Size(d) && KeyAt(d, i, key, c, lo, hi) && (c.Str? || c == Char)
    ensures lo <= hi <= |raw| && key in Unpack(d, raw)
    ensures Unpack(d, raw)[key] == Chunk(raw[lo..hi])
  {
    UnpackKey(d, raw, i, key, c, lo, hi);
  }

  datatype Decoded = Decoded(data: map<string, Value>, next: nat)

  /** `from_file`: read exactly `Size(d)` bytes at `pos` and unpack them; a
      short read is an error, never a partial decode. */
  function FromFile(d: seq<Entry>, src: seq<byte>, pos: nat): (r: Result<Decoded>)
    requires pos <= |src|
    ensures r.Ok? <==> pos + Size(d) <= |src|
    ensures r.Err? ==> r.error == TruncatedSource
    ensures r.Ok? ==> r.value.next == pos + Size(d)
    ensures r.Ok? ==> r.value.data == Unpack(d, src[pos..pos + Size(d)])
  {
    var raw := Read(src, pos, Size(d));
    if |raw| < Size(d) then Err(TruncatedSource)
    else Ok(Decoded(Unpack(d, raw), pos + Size(d)))
  }
}

=== FILE: light.dfy ===
/** `Dbf`: opening a table (signature, header, encoding, field descriptors,
    terminator) and walking its record slots. */
module Light {
  import opened Bytes
  import opened Outcome
  import opened Casts
  import opened Layout
  import opened Definitions

  // ---- Encoding ----

  const DefaultEncoding: string := "cp866"

  /** `Dbf.__init__`: the caller's encoding when one is passed, else the
      header's; a missing or empty choice falls back to cp866. */
  function ResolveEncoding(given: Option<string>, fromHeader: Option<string>): (r: string)
    ensures r != ""
    ensures given.Some? && given.value != "" ==> r == given.value
    ensures given.None? && fromHeader.Some? && fromHeader.value != "" ==> r == fromHeader.value
    ensures given == Some("") || (given.None? && (fromHeader.None? || fromHeader.value == "")) ==>
      r == DefaultEncoding
  {
    var chosen := if given.None? then fromHeader else given;
    if chosen.None? || chosen.value == "" then DefaultEncoding else chosen.value
  }

  /** A passed encoding wins over the code page, whatever the header says. */
  lemma {:induction false} GivenEncodingWins(e: string, h1: Option<string>, h2: Option<string>)
    requires e != ""
    ensures ResolveEncoding(Some(e), h1) == ResolveEncoding(Some(e), h2) == e
  {
  }

  // ---- Duplicate names ----

  predicate EndsWithMark(s: string) {
    |s| > 0 && s[|s| - 1] == '_'
  }

  /** The names `_read_fields` settles on: a name already among the earlier
      fields' final names gets one '_' appended, any other is kept. */
  function Dedupe(names: seq<string>): (r: seq<string>)
    ensures |r| == |names|
    ensures forall i :: 0 <= i < |names| ==> r[i] == names[i] || r[i] == names[i] + "_"
  {
    if |names| == 0 then []
    else
      var earlier := Dedupe(names[..|names| - 1]);
      var n := names[|names| - 1];
      earlier + [if n in earlier then n + "_" else n]
  }

  /** Renaming looks only backwards: the first `k` final names depend on the
      first `k` names alone. */
  lemma {:induction false} DedupePrefix(names: seq<string>, k: nat)
    requires k <= |names|
    ensures Dedupe(names[..k]) == Dedupe(names)[..k]
    decreases |names|
  {
    if k == |names| {
      assert names[..k] == names;
    } else {
      var init := names[..|names| - 1];
      DedupePrefix(init, k);
      assert init[..k] == names[..k];
    }
  }

  /** Field `i` is renamed exactly when its name is among the earlier final names. */
  lemma {:induction false} DedupeAt(names: seq<string>, i: nat)
    requires i < |names|
    ensures var r := Dedupe(names);
      r[i] == if names[i] in r[..i] then names[i] + "_" else names[i]
  {
    DedupePrefix(names, i + 1);
    DedupePrefix(names, i);
    assert names[..i + 1][..i] == names[..i];
  }

  /** Names that are already distinct pass through untouched. */
  lemma {:induction false} DedupeKeepsDistinct(names: seq<string>)
    requires forall i, j :: 0 <= i < j < |names| ==> names[i] != names[j]
    ensures Dedupe(names) == names
  {
    if |names| > 0 {
      var init := names[..|names| - 1];
      DedupeKeepsDistinct(init);
      assert names == init + [names[|names| - 1]];
    }
  }

  lemma {:induction false} MarkedEqual(a: string, b: string)
    requires a + "_" == b + "_"
    ensures a == b
  {
    assert a == (a + "_")[..|a|];
    assert b == (b + "_")[..|b|];
  }

  lemma {:induction false} MarkedEnds(a: string)
    ensures EndsWithMark(a + "_")
  {
  }

  /** Two equal final names trace back to three equal names, when no name
      ends in '_'. */
  lemma {:induction false} CollisionWitness(names: seq<string>, i: nat, j: nat) returns (a: nat, b: nat, c: nat)
    requires forall n :: 0 <= n < |names| ==> !EndsWithMark(names[n])
    requires i < j < |names| && Dedupe(names)[i] == Dedupe(names)[j]
    ensures a < b < c < |names| && names[a] == names[b] == names[c]
  {
    var r := Dedupe(names);
    DedupeAt(names, j);
    assert r[i] in r[..j];
    MarkedEnds(names[j]);
    assert r[j] == names[j] + "_";
    assert names[j] in r[..j];
    var k :| 0 <= k < j && r[k] == names[j];
    MarkedEnds(names[k]);
    MarkedEnds(names[i]);
    assert r[k] == names[k];
    assert r[i] == names[i] + "_";
    MarkedEqual(names[i], names[j]);
    if i < k {
      a, b, c := i, k, j;
    } else {
      a, b, c := k, i, j;
    }
  }

  /** The final names are distinct when no name ends in '_' and no name
      occurs three times; the rule promises nothing more (see
      `DedupeCollisions`). */
  lemma {:induction false} DedupeDistinct(names: seq<string>)
    requires forall i :: 0 <= i < |names| ==> !EndsWithMark(names[i])
    requires forall i, j, k :: 0 <= i < j < k < |names| ==> !(names[i] == names[j] == names[k])
    ensures var r := Dedupe(names); forall i, j :: 0 <= i < j < |r| ==> r[i] != r[j]
  {
    var r := Dedupe(names);
    forall i, j | 0 <= i < j < |r|
      ensures r[i] != r[j]
    {
      if r[i] == r[j] {
        var a, b, c := CollisionWitness(names, i, j);
      }
    }
  }

  /** The limits of the rule: a third "a", or an "a" after "a" and "a_",
      still collides. */
  lemma DedupeCollisions()
    ensures Dedupe(["a", "a", "a"]) == ["a", "a_", "a_"]
    ensures Dedupe(["a", "a_", "a"]) == ["a", "a_", "a_"]
  {
    assert ["a", "a", "a"][..2] == ["a", "a"];
    assert ["a", "a", "a"][..2][..1] == ["a"];
    assert ["a", "a_", "a"][..2] == ["a", "a_"];
    assert ["a", "a_", "a"][..2][..1] == ["a"];
    assert ["a"][..0] == [];
    assert "a" + "_" == "a_";
  }

  // ---- Field descriptors ----

  function FieldNames(fs: seq<Field>): (r: seq<string>)
    ensures |r| == |fs| && forall i :: 0 <= i < |fs| ==> r[i] == fs[i].name
  {
    seq(|fs|, i requires 0 <= i < |fs| => fs[i].name)
  }

  predicate AllSynced(fs: seq<Field>) {
    forall i :: 0 <= i < |fs| ==> Synced(fs[i])
  }

  /** What `Field.from_file` makes of the 32 bytes at `at`. */
  predicate DescriptorAt(src: seq<byte>, at: nat, lower: bool, encoding: Option<string>, f: Field)
    requires at + 32 <= |src|
  {
    && Synced(f)
    && f.name == DescriptorName(src[at..at + 11], lower)
    && f.typ == src[at + 11..at + 12]
    && f.len == src[at + 16]
    && f.data["decimal_count"] == Num(src[at + 17])
    && f.encoding == encoding
  }

  /** The field `Field.from_file` reads at `at`, which must be in bounds. */
  function Descriptor(src: seq<byte>, at: nat, lower: bool, encoding: Option<string>): (f: Field)
    requires at + 32 <= |src|
    ensures DescriptorAt(src, at, lower, encoding, f)
    ensures FieldFromFile(src, at, lower, encoding) == Ok(Parsed(f, at + 32))
  {
    FieldFromFile(src, at, lower, encoding).value.value
  }

  /** The `fields_count` loop of `_read_fields`: descriptor `i` is the one at
      `pos + 32 * i`; a short read anywhere fails the whole header. */
  function ReadDescriptors(src: seq<byte>, pos: nat, n: nat, lower: bool, encoding: Option<string>): (r: Result<seq<Field>>)
    requires pos <= |src|
    ensures r.Ok? <==> pos + 32 * n <= |src|
    ensures r.Err? ==> r.error == TruncatedSource
    ensures r.Ok? ==> |r.value| == n && AllSynced(r.value)
    ensures r.Ok? ==> forall i :: 0 <= i < n ==> DescriptorAt(src, pos + 32 * i, lower, encoding, r.value[i])
  {
    if pos + 32 * n > |src| then Err(TruncatedSource)
    else Ok(seq(n, i requires 0 <= i < n => Descriptor(src, pos + 32 * i, lower, encoding)))
  }

  /** `_read_fields`' renaming pass: a field whose name is taken is renamed
      through `set_name`, every other field is kept as read. */
  function Renamed(fs: seq<Field>): (r: seq<Field>)
    requires AllSynced(fs)
    ensures |r| == |fs| && AllSynced(r)
    ensures FieldNames(r) == Dedupe(FieldNames(fs))
    ensures forall i :: 0 <= i < |fs| ==>
      && r[i].typ == fs[i].typ && r[i].len == fs[i].len && r[i].encoding == fs[i].encoding
      && r[i].data["decimal_count"] == fs[i].data["decimal_count"]
    ensures forall i :: 0 <= i < |fs| && fs[i].name !in FieldNames(r)[..i] ==> r[i] == fs[i]
  {
    var names := Dedupe(FieldNames(fs));
    var r := seq(|fs|, i requires 0 <= i < |fs| => if names[i] == fs[i].name then fs[i] else SetName(fs[i], names[i]));
    assert FieldNames(r) == names;
    forall i | 0 <= i < |fs| && fs[i].name !in names[..i]
      ensures r[i] == fs[i]
    {
      DedupeAt(FieldNames(fs), i);
    }
    r
  }

  /** `_read_fields`: `fields_count` descriptors (none when the count is
      negative), duplicate names renamed, then the '\r' terminator. */
  function ReadFields(src: seq<byte>, pos: nat, count: int, lower: bool, encoding: string): (r: Result<Parsed<seq<Field>>>)
    requires pos <= |src|
    ensures var n := if count < 0 then 0 else count;
      r.Ok? <==> pos + 32 * n < |src| && src[pos + 32 * n] == 13
    ensures var n := if count < 0 then 0 else count;
      r.Err? ==> r.error == (if pos + 32 * n >= |src| then TruncatedSource else MissingTerminator)
    ensures r.Ok? ==> var n := if count < 0 then 0 else count;
      && r.value.next == pos + 32 * n + 1 && |r.value.value| == n
      && AllSynced(r.value.value)
      && r.value.value == Renamed(ReadDescriptors(src, pos, n, lower, Some(encoding)).value)
  {
    var n := if count < 0 then 0 else count;
    if pos + 32 * n > |src| then Err(TruncatedSource)
    else
      var fs := ReadDescriptors(src, pos, n, lower, Some(encoding)).value;
      var at := pos + 32 * n;
      var term := Read(src, at, 1);
      assert at < |src| ==> term == [src[at]];
      if |term| < 1 then Err(TruncatedSource)
      else if term[0] != 13 then Err(MissingTerminator)
      else Ok(Parsed(Renamed(fs), pos + 32 * n + 1))
  }

  // ---- Records ----

  /** Where field `i`'s bytes begin within a record: the earlier fields'
      lengths added up. */
  function Start(fs: seq<Field>, i: nat): nat
    requires i <= |fs|
  {
    if i == 0 then 0 else Start(fs, i - 1) + fs[i - 1].len
  }

  /** The file position after reading the first `i` fields of a record at
      `pos`: each read advances by what it returned. */
  function Cursor(src: seq<byte>, pos: nat, fs: seq<Field>, i: nat): (c: nat)
    requires pos <= |src| && i <= |fs|
    ensures pos <= c <= |src|
  {
    if i == 0 then pos
    else
      var c := Cursor(src, pos, fs, i - 1);
      c + |Read(src, c, fs[i - 1].len)|
  }

  /** The bytes field `i` is cast from: `fileobj.read(field.len)` at the cursor. */
  function Window(src: seq<byte>, pos: nat, fs: seq<Field>, i: nat): seq<byte>
    requires pos <= |src| && i < |fs|
  {
    Read(src, Cursor(src, pos, fs, i), fs[i].len)
  }

  /** Each field consumes its `len` bytes, cut short only by the end of the file. */
  lemma {:induction false} CursorClamped(src: seq<byte>, pos: nat, fs: seq<Field>, i: nat)
    requires pos <= |src| && i <= |fs|
    ensures Cursor(src, pos, fs, i) == Min(pos + Start(fs, i), |src|)
  {
    if i > 0 {
      CursorClamped(src, pos, fs, i - 1);
      ClampedRead(src, pos, Start(fs, i - 1), fs[i - 1].len);
    }
  }

  lemma {:induction false} ClampedRead(src: seq<byte>, pos: nat, start: nat, len: nat)
    ensures Min(pos + start, |src|) + |Read(src, Min(pos + start, |src|), len)| == Min(pos + start + len, |src|)
    ensures Read(src, Min(pos + start, |src|), len) == src[Min(pos + start, |src|)..Min(pos + start + len, |src|)]
  {
  }

  /** Field `i`'s window is its `len` bytes after the earlier fields' bytes,
      cut short by the end of the file. */
  lemma {:induction false} WindowBytes(src: seq<byte>, pos: nat, fs: seq<Field>, i: nat)
    requires pos <= |src| && i < |fs|
    ensures Window(src, pos, fs, i) ==
      src[Min(pos + Start(fs, i), |src|)..Min(pos + Start(fs, i) + fs[i].len, |src|)]
  {
    CursorClamped(src, pos, fs, i);
    ClampedRead(src, pos, Start(fs, i), fs[i].len);
  }

  /** The values of `rs` when every one is `Ok`; otherwise the first failure,
      as a loop that stops at the first exception. */
  function Collect<T>(rs: seq<Result<T>>): (r: Result<seq<T>>)
    ensures r.Ok? <==> forall i :: 0 <= i < |rs| ==> rs[i].Ok?
    ensures r.Ok? ==> |r.value| == |rs| && forall i :: 0 <= i < |rs| ==> r.value[i] == rs[i].value
    ensures r.Err? ==> exists i :: 0 <= i < |rs| && rs[i].Err? && rs[i].error == r.error &&
                                  forall j :: 0 <= j < i ==> rs[j].Ok?
  {
    if |rs| == 0 then Ok([])
    else match rs[0]
      case Err(e) => Err(e)
      case Ok(v) =>
        match Collect(rs[1..])
        case Err(e) => Err(e)
        case Ok(vs) => Ok([v] + vs)
  }

  /** Every field of a record at `pos` cast from its window, in descriptor
      order. */
  function FieldCasts(src: seq<byte>, pos: nat, fs: seq<Field>): (rs: seq<Result<Cell>>)
    requires pos <= |src| && AllSynced(fs)
    ensures |rs| == |fs|
    ensures forall i :: 0 <= i < |rs| && rs[i].Err? ==> rs[i].error == DecodeFailure
  {
    seq(|fs|, i requires 0 <= i < |fs| => Cast(fs[i], Window(src, pos, fs, i)))
  }

  /** One record's fields, read back to back from `pos` and each cast; the
      first failing cast fails the record. */
  function ReadRow(src: seq<byte>, pos: nat, fs: seq<Field>): (r: Result<Parsed<seq<Cell>>>)
    requires pos <= |src| && AllSynced(fs)
    ensures r.Err? ==> r.error == DecodeFailure
    ensures r.Ok? ==> r.value.next == Cursor(src, pos, fs, |fs|) && |r.value.value| == |fs|
  {
    match Collect(FieldCasts(src, pos, fs))
    case Err(e) => Err(e)
    case Ok(cells) => Ok(Parsed(cells, Cursor(src, pos, fs, |fs|)))
  }

  /** A record decodes exactly when every field's cast succeeds on its
      window. */
  lemma {:induction false} RowOk(src: seq<byte>, pos: nat, fs: seq<Field>)
    requires pos <= |src| && AllSynced(fs)
    ensures ReadRow(src, pos, fs).Ok? <==> forall i {:trigger Window(src, pos, fs, i)} :: 0 <= i < |fs| ==>
      Cast(fs[i], Window(src, pos, fs, i)).Ok?
  {
    CastsAt(src, pos, fs);
  }

  /** Cell `i` of a decoded record is field `i`'s cast of its window. */
  lemma {:induction false} RowValues(src: seq<byte>, pos: nat, fs: seq<Field>)
    requires pos <= |src| && AllSynced(fs)
    requires ReadRow(src, pos, fs).Ok?
    ensures forall i {:trigger Window(src, pos, fs, i)} :: 0 <= i < |fs| ==>
      Cast(fs[i], Window(src, pos, fs, i)).Ok? &&
      ReadRow(src, pos, fs).value.value[i] == Cast(fs[i], Window(src, pos, fs, i)).value
  {
    CastsAt(src, pos, fs);
  }

  lemma {:induction false} CastsAt(src: seq<byte>, pos: nat, fs: seq<Field>)
    requires pos <= |src| && AllSynced(fs)
    ensures forall i {:trigger Window(src, pos, fs, i)} :: 0 <= i < |fs| ==>
      FieldCasts(src, pos, fs)[i] == Cast(fs[i], Window(src, pos, fs, i))
  {
  }

  // ---- Slots ----

  /** The marker byte `*` that flags a record as deleted. */
  const DeletedMarker: byte := 42

  /** What one record slot turned out to hold. */
  datatype Slot = Deleted | Live(cells: seq<Cell>)

  /** One pass of the `iter_rows` loop at `pos`: the marker byte, then, unless
      it flags the record deleted, the record's fields. A deleted slot
      consumes its marker byte and nothing else. */
  function ReadSlot(src: seq<byte>, pos: nat, fs: seq<Field>): (r: Result<Parsed<Slot>>)
    requires pos <= |src| && AllSynced(fs)
    ensures pos == |src| ==> r.Err? && r.error == TruncatedSource
    ensures pos < |src| && src[pos] == DeletedMarker ==>
      r.Ok? && r.value.value.Deleted? && r.value.next == pos + 1
    ensures pos < |src| && src[pos] != DeletedMarker ==>
      && (r.Ok? <==> ReadRow(src, pos + 1, fs).Ok?)
      && (r.Ok? ==> r.value.value.Live? && r.value.next == ReadRow(src, pos + 1, fs).value.next
                    && r.value.value.cells == ReadRow(src, pos + 1, fs).value.value)
    ensures r.Err? ==> r.error in {TruncatedSource, DecodeFailure}
    ensures r.Ok? ==> pos < r.value.next <= |src|
    ensures r.Ok? && r.value.value.Live? ==> |r.value.value.cells| == |fs|
  {
    var marker := Read(src, pos, 1);
    if |marker| < 1 then Err(TruncatedSource)
    else if marker[0] == DeletedMarker then Ok(Parsed(Deleted, pos + 1))
    else
      match ReadRow(src, pos + 1, fs)
      case Err(e) => Err(e)
      case Ok(row) => Ok(Parsed(Live(row.value), row.next))
  }

  // ---- Iteration ----

  /** How far `iter_rows` gets: the rows yielded, the slots consumed and how
      many of them were deleted, the cursor, and the error that ended the
      iteration early, if one did. */
  datatype Scan = Scan(rows: seq<seq<Cell>>, slots: nat, deleted: nat, next: nat, failure: Option<Error>)

  /** `iter_rows` over `count` slots starting at `pos`; the first error ends
      it, after the rows already yielded. */
  function ScanRows(src: seq<byte>, pos: nat, fs: seq<Field>, count: nat): (s: Scan)
    requires pos <= |src| && AllSynced(fs)
    ensures s.failure.None? ==> s.slots == count
    ensures s.failure.Some? ==> s.slots < count && s.failure.value in {TruncatedSource, DecodeFailure}
    ensures |s.rows| + s.deleted == s.slots
    ensures pos <= s.next <= |src| && s.slots <= s.next - pos
    ensures forall j :: 0 <= j < |s.rows| ==> |s.rows[j]| == |fs|
  {
    if count == 0 then Scan([], 0, 0, pos, None)
    else
      var s := ScanRows(src, pos, fs, count - 1);
      if s.failure.Some? then s
      else
        var slot := ReadSlot(src, s.next, fs);
        assert slot.Ok? ==> s.next < slot.value.next <= |src|;
        Advance(s, slot)
  }

  /** One slot's outcome added to the iteration so far: an error ends it, a
      deleted slot is counted, a live one is yielded. */
  function Advance(s: Scan, slot: Result<Parsed<Slot>>): Scan {
    match slot
    case Err(e) => s.(failure := Some(e))
    case Ok(p) =>
      match p.value
      case Deleted => s.(slots := s.slots + 1, deleted := s.deleted + 1, next := p.next)
      case Live(cells) => s.(rows := s.rows + [cells], slots := s.slots + 1, next := p.next)
  }

  /** One more slot never takes back a row already yielded, and after an
      error nothing more is yielded. */
  lemma {:induction false} ScanStep(src: seq<byte>, pos: nat, fs: seq<Field>, count: nat)
    requires pos <= |src| && AllSynced(fs) && 0 < count
    ensures ScanRows(src, pos, fs, count - 1).rows <= ScanRows(src, pos, fs, count).rows
    ensures ScanRows(src, pos, fs, count - 1).failure.Some? ==>
      ScanRows(src, pos, fs, count).failure.Some? &&
      |ScanRows(src, pos, fs, count).rows| == |ScanRows(src, pos, fs, count - 1).rows|
  {
  }

  /** A consumer that stops after fewer slots has seen the first rows of a
      longer iteration, in order; once an error ends an iteration, more slots
      add no rows. */
  lemma {:induction false} ScanPrefix(src: seq<byte>, pos: nat, fs: seq<Field>, c1: nat, c2: nat)
    requires pos <= |src| && AllSynced(fs) && c1 <= c2
    ensures ScanRows(src, pos, fs, c1).rows <= ScanRows(src, pos, fs, c2).rows
    ensures ScanRows(src, pos, fs, c1).failure.Some? ==>
      ScanRows(src, pos, fs, c2).failure.Some? &&
      |ScanRows(src, pos, fs, c2).rows| == |ScanRows(src, pos, fs, c1).rows|
  {
    if c1 < c2 {
      forall c | c1 <= c < c2
        ensures ScanRows(src, pos, fs, c1).rows <= ScanRows(src, pos, fs, c).rows
        ensures ScanRows(src, pos, fs, c1).failure.Some? ==>
          ScanRows(src, pos, fs, c).failure.Some? &&
          |ScanRows(src, pos, fs, c).rows| == |ScanRows(src, pos, fs, c1).rows|
      {
        ScanPrefix(src, pos, fs, c1, c);
      }
      ScanStep(src, pos, fs, c2);
    } else {
      ScanSame(src, pos, fs, c1, c2);
    }
  }

  lemma {:induction false} ScanSame(src: seq<byte>, pos: nat, fs: seq<Field>, c1: nat, c2: nat)
    requires pos <= |src| && AllSynced(fs) && c1 == c2
    ensures ScanRows(src, pos, fs, c1).rows <= ScanRows(src, pos, fs, c2).rows
    ensures |ScanRows(src, pos, fs, c2).rows| == |ScanRows(src, pos, fs, c1).rows|
    ensures ScanRows(src, pos, fs, c1).failure == ScanRows(src, pos, fs, c2).failure
  {
  }

  /** A run of deleted markers is passed over one byte per slot and yields
      no rows. */
  lemma {:induction false} DeletedRun(src: seq<byte>, pos: nat, fs: seq<Field>, count: nat)
    requires pos + count <= |src| && AllSynced(fs)
    requires forall j :: pos <= j < pos + count ==> src[j] == DeletedMarker
    ensures ScanRows(src, pos, fs, count).failure.None?
    ensures ScanRows(src, pos, fs, count).rows == []
    ensures ScanRows(src, pos, fs, count).deleted == count
    ensures ScanRows(src, pos, fs, count).next == pos + count
  {
    if count > 0 {
      forall c | 0 <= c < count
        ensures ScanRows(src, pos, fs, c).failure.None?
        ensures ScanRows(src, pos, fs, c).rows == []
        ensures ScanRows(src, pos, fs, c).deleted == c
        ensures ScanRows(src, pos, fs, c).next == pos + c
      {
        DeletedRun(src, pos, fs, c);
      }
      DeletedStep(src, pos, fs, count);
    }
  }

  /** A slot whose marker flags it deleted adds no row: the iteration moves
      one byte on and counts one more deleted record. */
  lemma {:induction false} DeletedStep(src: seq<byte>, pos: nat, fs: seq<Field>, count: nat)
    requires pos <= |src| && AllSynced(fs) && 0 < count
    requires ScanRows(src, pos, fs, count - 1).failure.None?
    requires ScanRows(src, pos, fs, count - 1).next < |src|
    requires src[ScanRows(src, pos, fs, count - 1).next] == DeletedMarker
    ensures ScanRows(src, pos, fs, count).failure.None?
    ensures ScanRows(src, pos, fs, count).rows == ScanRows(src, pos, fs, count - 1).rows
    ensures ScanRows(src, pos, fs, count).deleted == ScanRows(src, pos, fs, count - 1).deleted + 1
    ensures ScanRows(src, pos, fs, count).next == ScanRows(src, pos, fs, count - 1).next + 1
  {
  }

  /** A slot whose marker does not flag it deleted holds the record after
      the marker: the iteration gains exactly that record's cells and moves
      past it, or, when a cast fails, stops with that error and no new row.
      Either way the deleted count stays as it was. */
  lemma {:induction false} LiveStep(src: seq<byte>, pos: nat, fs: seq<Field>, count: nat)
    requires pos <= |src| && AllSynced(fs) && 0 < count
    requires ScanRows(src, pos, fs, count - 1).failure.None?
    requires ScanRows(src, pos, fs, count - 1).next < |src|
    requires src[ScanRows(src, pos, fs, count - 1).next] != DeletedMarker
    ensures LiveAdvance(src, fs, ScanRows(src, pos, fs, count - 1), ScanRows(src, pos, fs, count))
  {
    var prev, cur := ScanRows(src, pos, fs, count - 1), ScanRows(src, pos, fs, count);
    var slot := ReadSlot(src, prev.next, fs);
    assert cur == Advance(prev, slot) by { ScanUnfold(src, pos, fs, count); }
    assert SlotOfRow(slot, ReadRow(src, prev.next + 1, fs)) by { SlotLive(src, prev.next, fs); }
    AdvanceLive(src, fs, prev, cur, slot);
  }

  /** `cur` is `prev` after a live slot at `prev.next`: with the record that
      follows the marker appended, or with the error reading it raised. */
  predicate LiveAdvance(src: seq<byte>, fs: seq<Field>, prev: Scan, cur: Scan)
    requires prev.next < |src| && AllSynced(fs)
  {
    var row := ReadRow(src, prev.next + 1, fs);
    && cur.deleted == prev.deleted
    && (row.Ok? ==> cur.failure.None? && cur.rows == prev.rows + [row.value.value] && cur.next == row.value.next)
    && (row.Err? ==> cur.failure == Some(row.error) && cur.rows == prev.rows)
  }

  lemma {:induction false} AdvanceLive(src: seq<byte>, fs: seq<Field>, prev: Scan, cur: Scan, slot: Result<Parsed<Slot>>)
    requires prev.next < |src| && AllSynced(fs)
    requires prev.failure.None? && cur == Advance(prev, slot)
    requires SlotOfRow(slot, ReadRow(src, prev.next + 1, fs))
    ensures LiveAdvance(src, fs, prev, cur)
  {
  }

  /** `slot` is what a live marker followed by the record read `row` gives. */
  predicate SlotOfRow(slot: Result<Parsed<Slot>>, row: Result<Parsed<seq<Cell>>>) {
    && (row.Ok? ==> slot == Ok(Parsed(Live(row.value.value), row.value.next)))
    && (row.Err? ==> slot == Err(row.error))
  }

  /** A slot that is not deleted is the record after its marker. */
  lemma {:induction false} SlotLive(src: seq<byte>, at: nat, fs: seq<Field>)
    requires at < |src| && AllSynced(fs) && src[at] != DeletedMarker
    ensures SlotOfRow(ReadSlot(src, at, fs), ReadRow(src, at + 1, fs))
  {
  }

  /** One more slot is one more `Advance`, until an error. */
  lemma {:induction false} ScanUnfold(src: seq<byte>, pos: nat, fs: seq<Field>, count: nat)
    requires pos <= |src| && AllSynced(fs) && 0 < count
    requires ScanRows(src, pos, fs, count - 1).failure.None?
    ensures var prev := ScanRows(src, pos, fs, count - 1);
      ScanRows(src, pos, fs, count) == Advance(prev, ReadSlot(src, prev.next, fs))
  {
  }

  /** Running out of bytes where a marker should be stops the iteration
      with a truncation and no new row. */
  lemma {:induction false} EndStep(src: seq<byte>, pos: nat, fs: seq<Field>, count: nat)
    requires pos <= |src| && AllSynced(fs) && 0 < count
    requires ScanRows(src, pos, fs, count - 1).failure.None?
    requires ScanRows(src, pos, fs, count - 1).next == |src|
    ensures ScanRows(src, pos, fs, count).failure == Some(TruncatedSource)
    ensures ScanRows(src, pos, fs, count).rows == ScanRows(src, pos, fs, count - 1).rows
    ensures ScanRows(src, pos, fs, count).deleted == ScanRows(src, pos, fs, count - 1).deleted
  {
  }

  // ---- Tables ----

  /** An opened `Dbf`: its header, the encoding it settled on, its fields
      and where the first record slot begins. */
  datatype Table = Table(prolog: Prolog, encoding: string, fields: seq<Field>, dataStart: nat)

  /** What `Dbf.__init__` leaves behind for `iter_rows` to rely on. */
  predicate Opened(src: seq<byte>, t: Table) {
    && t.dataStart <= |src|
    && AllSynced(t.fields)
    && RawProlog(t.prolog.data)
  }

  /** Where the header terminator sits for a header length `lenHead`: just
      after the last of the `(lenHead - 33) / 32` descriptors, and right
      after the 32-byte header when that count is not positive. */
  function TerminatorAt(lenHead: int): nat {
    if lenHead < 33 then 32 else lenHead - 1
  }

  /** `Dbf.__init__`: pick the layout from the signature, read the header
      from the start of the file, settle the encoding, then read the field
      descriptors and their terminator. */
  function Open(src: seq<byte>, given: Option<string>, lower: bool): (r: Result<Table>)
    ensures |src| == 0 ==> r.Err? && r.error == TruncatedSource
    ensures 0 < |src| && src[0] in {48, 49} ==> r.Err? && r.error == UnsupportedVariant
    ensures 0 < |src| < 32 ==> r.Err?
    ensures 32 <= |src| && src[0] !in {48, 49} ==>
      var lenHead := LittleEndian(src[8..10]);
      var term := TerminatorAt(lenHead);
      && (!WholeDescriptors(lenHead) ==> r == Err(InconsistentHeader))
      && (WholeDescriptors(lenHead) && term >= |src| ==> r == Err(TruncatedSource))
      && (WholeDescriptors(lenHead) && term < |src| && src[term] != 13 ==> r == Err(MissingTerminator))
      && (WholeDescriptors(lenHead) && term < |src| && src[term] == 13 ==> r.Ok?)
    ensures r.Ok? ==> Opened(src, r.value)
  {
    var format :- FormatDescription(src, 0);
    var header :- ReadProlog(src, format.next);
    var p := header.value;
    assert header.next == 32 && 33 + 32 * p.fieldsCount == LittleEndian(src[8..10]);
    assert 32 + 32 * (if p.fieldsCount < 0 then 0 else p.fieldsCount) == TerminatorAt(LittleEndian(src[8..10]));
    var encoding := ResolveEncoding(given, Encoding(p));
    var fields :- ReadFields(src, header.next, p.fieldsCount, lower, encoding);
    Ok(Table(p, encoding, fields.value, fields.next))
  }

  /** What an opened table says about the file: the dBASE III header at
      offset 0 gave the signature, record count and code page, the field
      count fixed how many descriptors were read, and the terminator sits
      just before the first record. */
  lemma {:induction false} OpenHeader(src: seq<byte>, given: Option<string>, lower: bool)
    requires Open(src, given, lower).Ok?
    ensures 32 <= |src| && src[0] !in {48, 49}
    ensures var t := Open(src, given, lower).value;
      && t.prolog.signature == src[0]
      && t.prolog.recordsCount == LittleEndian(src[4..8])
      && t.encoding == ResolveEncoding(given, Encoding(t.prolog))
    ensures var t := Open(src, given, lower).value;
      && |t.fields| == (if t.prolog.fieldsCount < 0 then 0 else t.prolog.fieldsCount)
      && 33 <= t.dataStart && src[t.dataStart - 1] == 13
    ensures var t := Open(src, given, lower).value;
      && ReadDescriptors(src, 32, |t.fields|, lower, Some(t.encoding)).Ok?
      && t.fields == Renamed(ReadDescriptors(src, 32, |t.fields|, lower, Some(t.encoding)).value)
  {
    OpenUnfold(src, given, lower);
  }

  /** The field count and the code page of an opened table are the ones
      the header bytes give: `len_head` at 8-9 fixes the count, and byte 29
      picks the encoding unless the caller passed one. */
  lemma {:induction false} OpenHeaderBytes(src: seq<byte>, given: Option<string>, lower: bool)
    requires Open(src, given, lower).Ok?
    ensures 32 <= |src|
    ensures var t := Open(src, given, lower).value;
      && 33 + 32 * t.prolog.fieldsCount == LittleEndian(src[8..10])
      && t.prolog.data["code_page"] == Num(src[29])
      && t.encoding == ResolveEncoding(given, if src[29] in CodePages then Some(CodePages[src[29]]) else None)
  {
    OpenUnfold(src, given, lower);
  }

  /** An opened table is the header read at offset 0 and the fields read
      right after it. */
  lemma {:induction false} OpenUnfold(src: seq<byte>, given: Option<string>, lower: bool)
    requires Open(src, given, lower).Ok?
    ensures 32 <= |src| && ReadProlog(src, 0).Ok?
    ensures var t, p := Open(src, given, lower).value, ReadProlog(src, 0).value.value;
      && t.prolog == p && t.encoding == ResolveEncoding(given, Encoding(p))
      && ReadFields(src, 32, p.fieldsCount, lower, t.encoding) == Ok(Parsed(t.fields, t.dataStart))
  {
  }

  /** Records begin right after the terminator, which sits where the
      header's `len_head` says, except that a `len_head` below 33 (no field
      at all) still leaves the 32-byte header and the terminator before
      them. */
  lemma {:induction false} DataStart(src: seq<byte>, given: Option<string>, lower: bool)
    requires Open(src, given, lower).Ok?
    ensures var lenHead := LittleEndian(src[8..10]);
      Open(src, given, lower).value.dataStart == if lenHead < 33 then 33 else lenHead
  {
  }

  /** Iterating an opened table: its `records_count` slots from the first
      record on. */
  function IterRows(src: seq<byte>, t: Table): (s: Scan)
    requires Opened(src, t)
    ensures s.failure.None? ==> |s.rows| == t.prolog.recordsCount - s.deleted
    ensures s.failure.Some? ==> s.slots < t.prolog.recordsCount
    ensures forall j :: 0 <= j < |s.rows| ==> |s.rows[j]| == |t.fields|
  {
    ScanRows(src, t.dataStart, t.fields, t.prolog.recordsCount)
  }
}

=== FILE: outcome.dfy ===
/** Failure-compatible wrappers shared by every stage of the decoder.
    Each exception the modelled stages raise becomes one `Error`
    constructor. */
module Outcome {

  datatype Option<+T> = None | Some(value: T)

  /** The fatal conditions of the decoding pipeline. */
  datatype Error =
    | TruncatedSource       // fewer bytes than a fixed-size region needs
    | InconsistentHeader    // header length is not 33 plus a multiple of 32
    | MissingTerminator     // the byte after the descriptors is not '\r'
    | UnsupportedVariant    // FoxPro signatures 48 and 49
    | DecodeFailure         // a cast could not parse the field text

  /** A value read from the file, with the cursor just past it. */
  datatype Parsed<+T> = Parsed(value: T, next: nat)

  datatype Result<+T> = Ok(value: T) | Err(error: Error) {

    predicate IsFailure() {
      Err?
    }

    function PropagateFailure<U>(): Result<U>
      requires Err?
    {
      Err(error)
    }

    function Extract(): T
      requires Ok?
    {
      value
    }
  }
}

=== FILE: strings.dfy ===
/** The text operations the cast layer relies on: `str.strip`, `str.lower`,
    and the integer, decimal and date literal syntaxes it parses. */
module Strings {
  import opened Outcome

  /** Python's `str.isspace` on the code points it recognises. */
  predicate IsSpace(c: char) {
    || 9 <= c as int <= 13
    || 28 <= c as int <= 32
    || c as int == 0x85
    || c as int == 0xA0
    || c as int == 0x1680
    || 0x2000 <= c as int <= 0x200A
    || c as int == 0x2028
    || c as int == 0x2029
    || c as int == 0x202F
    || c as int == 0x205F
    || c as int == 0x3000
  }

  predicate AllSpace(s: string) {
    forall k :: 0 <= k < |s| ==> IsSpace(s[k])
  }

  /** Neither end of `s` is whitespace. */
  predicate Trimmed(s: string) {
    |s| == 0 || (!IsSpace(s[0]) && !IsSpace(s[|s| - 1]))
  }

  function TrimStart(s: string): (r: string)
    ensures |r| <= |s| && r == s[|s| - |r|..]
    ensures AllSpace(s[..|s| - |r|])
    ensures |r| > 0 ==> !IsSpace(r[0])
  {
    if |s| > 0 && IsSpace(s[0]) then TrimStart(s[1..]) else s
  }

  function TrimEnd(s: string): (r: string)
    ensures |r| <= |s| && r == s[..|r|]
    ensures AllSpace(s[|r|..])
    ensures |r| > 0 ==> !IsSpace(r[|r| - 1])
  {
    if |s| > 0 && IsSpace(s[|s| - 1]) then TrimEnd(s[..|s| - 1]) else s
  }

  /** `r` is `s` with some whitespace removed from each end. */
  predicate IsStripOf(s: string, r: string) {
    exists i, j :: 0 <= i <= j <= |s| && r == s[i..j] && AllSpace(s[..i]) && AllSpace(s[j..])
  }

  /** `str.strip()`: whitespace removed from both ends, the middle untouched. */
  function Strip(s: string): (r: string)
    ensures IsStripOf(s, r)
    ensures Trimmed(r)
  {
    var a := TrimStart(s);
    var r := TrimEnd(a);
    StripWitness(s, a, r);
    r
  }

  lemma {:induction false} StripWitness(s: string, a: string, r: string)
    requires |a| <= |s| && a == s[|s| - |a|..] && AllSpace(s[..|s| - |a|])
    requires |r| <= |a| && r == a[..|r|] && AllSpace(a[|r|..])
    ensures IsStripOf(s, r)
  {
    var i := |s| - |a|;
    var j := i + |r|;
    assert r == s[i..j];
    assert s[j..] == a[|r|..];
    assert 0 <= i <= j <= |s| && r == s[i..j] && AllSpace(s[..i]) && AllSpace(s[j..]);
  }

  lemma {:induction false} TrimStartPadded(a: string, t: string)
    requires AllSpace(a)
    requires |t| == 0 || !IsSpace(t[0])
    ensures TrimStart(a + t) == t
    decreases |a|
  {
    if |a| > 0 {
      assert (a + t)[1..] == a[1..] + t;
      TrimStartPadded(a[1..], t);
    } else {
      assert a + t == t;
    }
  }

  lemma {:induction false} TrimEndPadded(t: string, b: string)
    requires AllSpace(b)
    requires |t| == 0 || !IsSpace(t[|t| - 1])
    ensures TrimEnd(t + b) == t
    decreases |b|
  {
    if |b| > 0 {
      assert (t + b)[..|t + b| - 1] == t + b[..|b| - 1];
      TrimEndPadded(t, b[..|b| - 1]);
    } else {
      assert t + b == t;
    }
  }

  /** Stripping recovers any trimmed text from any whitespace padding. */
  lemma {:induction false} StripPadded(a: string, t: string, b: string)
    requires AllSpace(a) && AllSpace(b) && Trimmed(t)
    ensures Strip(a + t + b) == t
  {
    if |t| == 0 {
      assert a + t + b == a + b;
      TrimStartPadded(a + b, "");
      assert a + b + "" == a + b;
    } else {
      assert a + t + b == a + (t + b);
      TrimStartPadded(a, t + b);
      TrimEndPadded(t, b);
    }
  }

  /** Text with no whitespace at either end is left as it is. */
  lemma {:induction false} StripTrimmed(t: string)
    requires Trimmed(t)
    ensures Strip(t) == t
  {
    StripPadded("", t, "");
    assert "" + t + "" == t;
  }

  /** Stripping twice is stripping once. */
  lemma {:induction false} StripIdempotent(s: string)
    ensures Strip(Strip(s)) == Strip(s)
  {
    StripTrimmed(Strip(s));
  }

  /** `str.lower` on ASCII and on the Latin-1 capitals. */
  function LowerChar(c: char): char {
    if 'A' <= c <= 'Z' || (0xC0 <= c as int <= 0xDE && c as int != 0xD7) then
      (c as int + 32) as char
    else
      c
  }

  function Lower(s: string): (r: string)
    ensures |r| == |s|
    ensures forall i :: 0 <= i < |s| ==> r[i] == LowerChar(s[i])
  {
    seq(|s|, i requires 0 <= i < |s| => LowerChar(s[i]))
  }

  /** Lower-casing twice is lower-casing once. */
  lemma {:induction false} LowerIdempotent(s: string)
    ensures Lower(Lower(s)) == Lower(s)
  {
  }

  predicate IsDigit(c: char) {
    '0' <= c <= '9'
  }

  predicate AllDigits(s: string) {
    forall i :: 0 <= i < |s| ==> IsDigit(s[i])
  }

  /** Digits have no case: lower-casing leaves a digit string alone. */
  lemma {:induction false} LowerDigits(s: string)
    requires AllDigits(s)
    ensures Lower(s) == s
  {
    var r := Lower(s);
    assert |r| == |s|;
    forall i | 0 <= i < |s|
      ensures r[i] == s[i]
    {
      assert IsDigit(s[i]);
    }
  }

  function DigitChar(d: nat): (c: char)
    requires d < 10
    ensures IsDigit(c) && c as int - '0' as int == d
  {
    ('0' as int + d) as char
  }

  function Pow10(n: nat): (r: nat)
    ensures r > 0
  {
    if n == 0 then 1 else 10 * Pow10(n - 1)
  }

  /** The value of a string of decimal digits, most significant first. */
  function DigitsValue(s: string): (r: nat)
    requires AllDigits(s)
  {
    if |s| == 0 then 0 else 10 * DigitsValue(s[..|s| - 1]) + (s[|s| - 1] as int - '0' as int)
  }

  lemma {:induction false} AllDigitsConcat(a: string, b: string)
    requires AllDigits(a) && AllDigits(b)
    ensures AllDigits(a + b)
  {
    forall i | 0 <= i < |a + b|
      ensures IsDigit((a + b)[i])
    {
      if i < |a| { assert (a + b)[i] == a[i]; } else { assert (a + b)[i] == b[i - |a|]; }
    }
  }

  lemma {:induction false} ShiftStep(x: int, p: int, y: int, d: int)
    ensures 10 * (x * p + y) + d == x * (10 * p) + (10 * y + d)
  {
  }

  /** Reading digits is positional: the digits of `b` contribute below those of `a`. */
  lemma {:induction false} DigitsConcat(a: string, b: string)
    requires AllDigits(a) && AllDigits(b)
    ensures AllDigits(a + b)
    ensures DigitsValue(a + b) == DigitsValue(a) * Pow10(|b|) + DigitsValue(b)
    decreases |b|
  {
    AllDigitsConcat(a, b);
    if |b| == 0 {
      assert a + b == a;
    } else {
      var b' := b[..|b| - 1];
      assert (a + b)[..|a + b| - 1] == a + b';
      assert (a + b)[|a + b| - 1] == b[|b| - 1];
      DigitsConcat(a, b');
      ShiftStep(DigitsValue(a), Pow10(|b'|), DigitsValue(b'), b[|b| - 1] as int - '0' as int);
    }
  }

  /** The decimal digits of `n`, zero-padded on the left to `width`. */
  function Digits(n: nat, width: nat): (r: string)
    requires n < Pow10(width)
    ensures |r| == width && AllDigits(r)
    ensures DigitsValue(r) == n
  {
    if width == 0 then ""
    else
      DivBound(n, Pow10(width - 1));
      var p := Digits(n / 10, width - 1);
      var r := p + [DigitChar(n % 10)];
      assert r[..|r| - 1] == p;
      r
  }

  lemma {:induction false} DivBound(n: nat, p: nat)
    ensures n < 10 * p <==> n / 10 < p
  {
  }

  function NumDigits(n: nat): (w: nat)
    ensures w > 0 && n < Pow10(w)
  {
    if n < 10 then 1
    else
      var w := NumDigits(n / 10);
      DivBound(n, Pow10(w));
      w + 1
  }

  /** Decimal text of a natural number without leading zeros. */
  function NatText(n: nat): (r: string)
    ensures |r| > 0 && AllDigits(r) && DigitsValue(r) == n
  {
    Digits(n, NumDigits(n))
  }

  /** Decimal text of an integer, '-' before a negative one. */
  function IntText(i: int): string {
    if i < 0 then "-" + NatText(-i) else NatText(i)
  }

  /** `int(s)` on stripped text: an optional sign then at least one digit. */
  function ParseInt(s: string): Option<int> {
    if |s| > 0 && (s[0] == '+' || s[0] == '-') then
      if |s| > 1 && AllDigits(s[1..]) then
        var magnitude: int := DigitsValue(s[1..]);
        Some(if s[0] == '-' then -magnitude else magnitude)
      else None
    else if |s| > 0 && AllDigits(s) then Some(DigitsValue(s))
    else None
  }

  lemma {:induction false} ParseUnsigned(t: string)
    requires |t| > 0 && AllDigits(t)
    ensures ParseInt(t) == Some(DigitsValue(t))
  {
    assert IsDigit(t[0]);
  }

  lemma {:induction false} ParseNegative(t: string)
    requires |t| > 0 && AllDigits(t)
    ensures ParseInt("-" + t) == Some(-(DigitsValue(t) as int))
  {
    var s := "-" + t;
    assert s[0] == '-';
    assert s[1..] == t;
  }

  /** Every integer's decimal text parses back to it. */
  lemma {:induction false} ParseIntText(i: int)
    ensures ParseInt(IntText(i)) == Some(i)
  {
    if i < 0 {
      ParseNegative(NatText(-i));
    } else {
      ParseUnsigned(NatText(i));
    }
  }

  /** Text that is not a sign followed by digits is rejected. */
  lemma {:induction false} ParseIntRejects(s: string)
    requires ParseInt(s).Some?
    ensures |s| > 0 && (IsDigit(s[0]) || s[0] == '+' || s[0] == '-')
    ensures forall i :: 1 <= i < |s| ==> IsDigit(s[i])
  {
    if s[0] == '+' || s[0] == '-' {
      forall i | 1 <= i < |s| ensures IsDigit(s[i]) { assert s[i] == s[1..][i - 1]; }
    }
  }

  predicate IsSign(c: char) {
    c == '+' || c == '-'
  }

  /** The literals `int()` accepts: at least one digit, and nothing but
      digits apart from one sign in front. */
  predicate IntLiteral(t: string) {
    && (exists i :: 0 <= i < |t| && IsDigit(t[i]))
    && (forall i :: 0 <= i < |t| ==> IsDigit(t[i]) || (i == 0 && IsSign(t[i])))
  }

  /** `int()` accepts exactly the integer literals. */
  lemma {:induction false} ParseIntAccepts(t: string)
    ensures ParseInt(t).Some? <==> IntLiteral(t)
  {
    if ParseInt(t).Some? {
      ParseIntRejects(t);
      if IsSign(t[0]) { assert IsDigit(t[|t| - 1]); } else { assert IsDigit(t[0]); }
    }
    if IntLiteral(t) {
      var i :| 0 <= i < |t| && IsDigit(t[i]);
      if IsSign(t[0]) {
        assert i > 0;
        forall k | 0 <= k < |t| - 1
          ensures IsDigit(t[1..][k])
        {
          assert t[1..][k] == t[k + 1];
        }
      }
    }
  }

  /** A literal's value is the value of its digits, negated after a minus
      sign; leading zeros change nothing. */
  lemma {:induction false} ParseIntDigits(digits: string)
    requires |digits| > 0 && AllDigits(digits)
    ensures ParseInt(digits) == Some(DigitsValue(digits))
    ensures ParseInt("+" + digits) == Some(DigitsValue(digits) as int)
    ensures ParseInt("-" + digits) == Some(-(DigitsValue(digits) as int))
  {
    ParseUnsigned(digits);
    ParseNegative(digits);
    var s := "+" + digits;
    assert s[0] == '+' && s[1..] == digits;
  }

  lemma {:induction false} LowerCharKind(c: char)
    ensures IsDigit(LowerChar(c)) <==> IsDigit(c)
    ensures IsSign(LowerChar(c)) <==> IsSign(c)
  {
  }

  /** Lower-casing neither makes nor unmakes an integer literal, so
      `parse_memo`'s `lower()` accepts exactly what `int()` would. */
  lemma {:induction false} LowerKeepsLiteral(t: string)
    ensures IntLiteral(Lower(t)) <==> IntLiteral(t)
  {
    var l := Lower(t);
    forall i | 0 <= i < |t|
      ensures IsDigit(l[i]) <==> IsDigit(t[i])
      ensures IsSign(l[i]) <==> IsSign(t[i])
    {
      LowerCharKind(t[i]);
    }
  }

  /** An exact fixed-point decimal: `unscaled / 10^scale`. */
  datatype Fixed = Fixed(unscaled: int, scale: nat)

  function FirstIndex(s: string, c: char): (r: Option<nat>)
    ensures r.Some? ==> r.value < |s| && s[r.value] == c
    ensures r.Some? ==> forall i :: 0 <= i < r.value ==> s[i] != c
    ensures r.None? ==> forall i :: 0 <= i < |s| ==> s[i] != c
  {
    if |s| == 0 then None
    else if s[0] == c then Some(0)
    else match FirstIndex(s[1..], c)
      case None => None
      case Some(k) => Some(k + 1)
  }

  /** The text before and after the first point; no point means no fraction. */
  function SplitPoint(body: string): (string, string) {
    match FirstIndex(body, '.')
    case None => (body, "")
    case Some(k) => (body[..k], body[k + 1..])
  }

  /** `Decimal(s)` on stripped text written as an optional sign, digits and at
      most one point: every written digit is kept and the scale is the number
      of digits after the point. */
  function ParseDecimal(s: string): Option<Fixed> {
    var negative := |s| > 0 && s[0] == '-';
    var body := if |s| > 0 && (s[0] == '+' || s[0] == '-') then s[1..] else s;
    var (whole, fraction) := SplitPoint(body);
    if AllDigits(whole) && AllDigits(fraction) && |whole| + |fraction| > 0 then
      var magnitude: int := DigitsValue(whole + fraction);
      Some(Fixed(if negative then -magnitude else magnitude, |fraction|))
    else
      None
  }

  /** `Decimal()` rejects text holding a character that is neither a
      digit, a sign nor a point. */
  lemma {:induction false} ParseDecimalRejects(t: string, k: nat)
    requires k < |t| && !IsDigit(t[k]) && !IsSign(t[k]) && t[k] != '.'
    ensures ParseDecimal(t) == None
  {
    var body := if IsSign(t[0]) then t[1..] else t;
    var j := if IsSign(t[0]) then k - 1 else k;
    assert 0 <= j < |body| && body[j] == t[k];
    match FirstIndex(body, '.')
    case None =>
    case Some(p) =>
      if j < p {
        assert body[..p][j] == body[j];
      } else {
        assert body[p + 1..][j - p - 1] == body[j];
      }
  }

  lemma {:induction false} SplitPointText(a: string, b: string)
    requires AllDigits(a)
    ensures SplitPoint(a + "." + b) == (a, b)
  {
    var s := a + "." + b;
    assert s[|a|] == '.';
    assert forall i :: 0 <= i < |a| ==> s[i] == a[i] && s[i] != '.';
    FirstIndexAt(s, '.', |a|);
    assert s[..|a|] == a;
    assert s[|a| + 1..] == b;
  }

  /** "a.b" keeps every written digit: the unscaled value is the digit string
      a·b and the scale is |b|, so the value is exactly a + b / 10^|b|. */
  lemma {:induction false} DecimalPointText(a: string, b: string)
    requires AllDigits(a) && AllDigits(b) && |a| + |b| > 0
    ensures AllDigits(a + b)
    ensures ParseDecimal(a + "." + b) == Some(Fixed(DigitsValue(a + b), |b|))
    ensures DigitsValue(a + b) == DigitsValue(a) * Pow10(|b|) + DigitsValue(b)
  {
    var s := a + "." + b;
    assert s[0] != '+' && s[0] != '-' by {
      if |a| > 0 { assert s[0] == a[0]; } else { assert s[0] == '.'; }
    }
    SplitPointText(a, b);
    DigitsConcat(a, b);
  }

  /** Digits alone are an integral decimal of scale 0. */
  lemma {:induction false} DecimalIntegralText(a: string)
    requires AllDigits(a) && |a| > 0
    ensures ParseDecimal(a) == Some(Fixed(DigitsValue(a), 0))
  {
    assert a[0] != '+' && a[0] != '-';
    assert forall i :: 0 <= i < |a| ==> a[i] != '.';
    assert SplitPoint(a) == (a, "");
    assert a + "" == a;
  }

  lemma {:induction false} FirstIndexAt(s: string, c: char, k: nat)
    requires k < |s| && s[k] == c
    requires forall i :: 0 <= i < k ==> s[i] != c
    ensures FirstIndex(s, c) == Some(k)
  {
  }

  function IsLeap(y: int): bool {
    y % 4 == 0 && (y % 100 != 0 || y % 400 == 0)
  }

  function DaysInMonth(y: int, m: int): int
    requires 1 <= m <= 12
  {
    if m == 2 then (if IsLeap(y) then 29 else 28)
    else if m == 4 || m == 6 || m == 9 || m == 11 then 30
    else 31
  }

  /** A calendar date `datetime.date` accepts. */
  predicate ValidDate(y: int, m: int, d: int) {
    1 <= y <= 9999 && 1 <= m <= 12 && 1 <= d <= DaysInMonth(y, m)
  }

  datatype Ymd = Ymd(year: int, month: int, day: int)

  /** `strptime(s, '%Y%m%d').date()` on eight-digit text. */
  function ParseYmd(s: string): Option<Ymd> {
    if |s| == 8 && AllDigits(s) then
      var y := DigitsValue(s[..4]);
      var m := DigitsValue(s[4..6]);
      var d := DigitsValue(s[6..]);
      if ValidDate(y, m, d) then Some(Ymd(y, m, d)) else None
    else
      None
  }

  function YmdText(y: nat, m: nat, d: nat): string
    requires y < 10000 && m < 100 && d < 100
  {
    Digits(y, 4) + Digits(m, 2) + Digits(d, 2)
  }

  /** Three numbers written as YYYYMMDD read back as themselves, and the
      calendar alone decides whether the text is accepted. */
  lemma {:induction false} ParseYmdOfText(y: nat, m: nat, d: nat)
    requires y < 10000 && m < 100 && d < 100
    ensures ParseYmd(YmdText(y, m, d)) == if ValidDate(y, m, d) then Some(Ymd(y, m, d)) else None
  {
    var s := YmdText(y, m, d);
    assert s[..4] == Digits(y, 4);
    assert s[4..6] == Digits(m, 2);
    assert s[6..] == Digits(d, 2);
  }

  /** Every valid date written as YYYYMMDD parses back to itself. */
  lemma {:induction false} ParseYmdText(y: nat, m: nat, d: nat)
    requires ValidDate(y, m, d)
    ensures ParseYmd(YmdText(y, m, d)) == Some(Ymd(y, m, d))
  {
    ParseYmdOfText(y, m, d);
  }

  /** A day that does not exist, written as YYYYMMDD, is rejected. */
  lemma {:induction false} ParseYmdRejects(y: nat, m: nat, d: nat)
    requires y < 10000 && m < 100 && d < 100 && !ValidDate(y, m, d)
    ensures ParseYmd(YmdText(y, m, d)) == None
  {
    ParseYmdOfText(y, m, d);
  }

  /** Digits read and written back at the same width are the same text. */
  lemma {:induction false} DigitsRoundTrip(s: string)
    requires AllDigits(s)
    ensures DigitsValue(s) < Pow10(|s|)
    ensures Digits(DigitsValue(s), |s|) == s
    decreases |s|
  {
    if |s| > 0 {
      var p := s[..|s| - 1];
      var d := s[|s| - 1] as int - '0' as int;
      DigitsRoundTrip(p);
      var n := DigitsValue(s);
      assert n == 10 * DigitsValue(p) + d;
      assert n < Pow10(|s|) by { assert DigitsValue(p) + 1 <= Pow10(|p|); }
      assert n / 10 == DigitsValue(p) && n % 10 == d;
      assert DigitChar(d) == s[|s| - 1];
      assert s == p + [s[|s| - 1]];
    }
  }

  /** Eight digits are the YYYYMMDD text of the three numbers they spell. */
  lemma {:induction false} YmdOfDigits(s: string)
    requires |s| == 8 && AllDigits(s)
    ensures DigitsValue(s[..4]) < 10000 && DigitsValue(s[4..6]) < 100 && DigitsValue(s[6..]) < 100
    ensures YmdText(DigitsValue(s[..4]), DigitsValue(s[4..6]), DigitsValue(s[6..])) == s
  {
    var a, b, c := s[..4], s[4..6], s[6..];
    SplitThree(s, 4, 6);
    assert AllDigits(a) && AllDigits(b) && AllDigits(c);
    YmdOfParts(a, b, c);
  }

  lemma {:induction false} YmdOfParts(a: string, b: string, c: string)
    requires |a| == 4 && |b| == 2 && |c| == 2
    requires AllDigits(a) && AllDigits(b) && AllDigits(c)
    ensures DigitsValue(a) < 10000 && DigitsValue(b) < 100 && DigitsValue(c) < 100
    ensures YmdText(DigitsValue(a), DigitsValue(b), DigitsValue(c)) == a + b + c
  {
    DigitsRoundTrip(a);
    DigitsRoundTrip(b);
    DigitsRoundTrip(c);
    Pow10Small();
  }

  lemma Pow10Small()
    ensures Pow10(2) == 100 && Pow10(4) == 10000
  {
  }

  lemma {:induction false} SplitThree(s: string, i: nat, j: nat)
    requires i <= j <= |s|
    ensures s == s[..i] + s[i..j] + s[j..]
  {
    assert s[i..] == s[i..j] + s[j..];
    assert s == s[..i] + s[i..];
  }

  /** A parsed date is exactly the text it came from: parsing YYYYMMDD
      and writing the date back as YYYYMMDD are inverse. */
  lemma {:induction false} ParseYmdExact(s: string)
    requires ParseYmd(s).Some?
    ensures var v := ParseYmd(s).value;
      0 <= v.year < 10000 && 0 <= v.month < 100 && 0 <= v.day < 100 &&
      YmdText(v.year, v.month, v.day) == s
  {
    YmdOfDigits(s);
  }

  /** A parsed date always exists in the calendar. */
  lemma {:induction false} ParseYmdValid(s: string)
    requires ParseYmd(s).Some?
    ensures ValidDate(ParseYmd(s).value.year, ParseYmd(s).value.month, ParseYmd(s).value.day)
  {
  }

  /** `s.rstrip(c)` for a single character: only trailing copies of `c` go. */
  function RStrip(s: string, c: char): (r: string)
    ensures |r| <= |s| && r == s[..|r|]
    ensures forall k :: |r| <= k < |s| ==> s[k] == c
    ensures |r| > 0 ==> r[|r| - 1] != c
  {
    if |s| > 0 && s[|s| - 1] == c then RStrip(s[..|s| - 1], c) else s
  }

  /** Stripping recovers any text not ending in `c` from any run of `c` after it. */
  lemma {:induction false} RStripPadded(t: string, pad: string, c: char)
    requires |t| == 0 || t[|t| - 1] != c
    requires forall k :: 0 <= k < |pad| ==> pad[k] == c
    ensures RStrip(t + pad, c) == t
    decreases |pad|
  {
    if |pad| > 0 {
      assert (t + pad)[..|t + pad| - 1] == t + pad[..|pad| - 1];
      RStripPadded(t, pad[..|pad| - 1], c);
    } else {
      assert t + pad == t;
    }
  }
}

=== FILE: utils.dfy ===
/** Helpers: the big-endian byte reading behind `Field.len`, and the
    case-insensitive file-name picker. */
module Utils {
  import opened Bytes
  import opened Outcome
  import opened Strings

  /** `bytes_to_int`: the bytes as one big-endian unsigned number; empty input
      has no hex digits and is an error. */
  function BytesToInt(s: seq<byte>): (r: Result<nat>)
    ensures r.Err? <==> |s| == 0
    ensures r.Err? ==> r.error == DecodeFailure
    ensures r.Ok? ==> r.value < Pow256(|s|)
  {
    if |s| == 0 then Err(DecodeFailure) else Ok(BigEndian(s))
  }

  /** A single byte reads as its unsigned value. */
  lemma {:induction false} BytesToIntByte(b: byte)
    ensures BytesToInt([b]) == Ok(b)
  {
    assert [b][..0] == [];
  }

  /** Appending a byte shifts the earlier ones up by eight bits. */
  lemma {:induction false} BytesToIntAppend(s: seq<byte>, b: byte)
    requires |s| > 0
    ensures BytesToInt(s + [b]).Ok?
    ensures BytesToInt(s + [b]).value == 256 * BytesToInt(s).value + b
  {
    assert (s + [b])[..|s|] == s;
  }

  /** `n` written as `k` big-endian bytes. */
  function ToBigEndian(n: nat, k: nat): (s: seq<byte>)
    requires n < Pow256(k)
    ensures |s| == k
  {
    if k == 0 then []
    else
      assert n / 256 < Pow256(k - 1);
      ToBigEndian(n / 256, k - 1) + [n % 256]
  }

  /** Writing a number in big-endian bytes and reading it back is the identity. */
  lemma {:induction false} BytesToIntRoundTrip(n: nat, k: nat)
    requires 0 < k && n < Pow256(k)
    ensures BytesToInt(ToBigEndian(n, k)) == Ok(n)
  {
    var s := ToBigEndian(n, k);
    assert n / 256 < Pow256(k - 1);
    var p := ToBigEndian(n / 256, k - 1);
    assert s[..|s| - 1] == p;
    if k == 1 {
      assert n / 256 == 0;
      assert BigEndian(p) == 0;
    } else {
      BytesToIntRoundTrip(n / 256, k - 1);
    }
  }

  // Paths, with '/' as the separator (`posixpath`).

  /** `p.rfind('/') + 1`: where the last component starts. */
  function TailStart(p: string): (i: nat)
    ensures i <= |p|
    ensures i > 0 ==> p[i - 1] == '/'
    ensures forall k :: i <= k < |p| ==> p[k] != '/'
  {
    if |p| == 0 then 0
    else if p[|p| - 1] == '/' then |p|
    else TailStart(p[..|p| - 1])
  }

  /** `path.basename`: the text after the last separator. */
  function Basename(p: string): string {
    p[TailStart(p)..]
  }

  /** `path.dirname`: the text before the last separator, without trailing
      separators unless it consists of separators only. */
  function Dirname(p: string): string {
    var head := p[..TailStart(p)];
    if head != "" && exists k :: 0 <= k < |head| && head[k] != '/' then RStrip(head, '/') else head
  }

  /** `path.join(a, b)`: an absolute `b` replaces `a`. */
  function Join(a: string, b: string): string {
    if |b| > 0 && b[0] == '/' then b
    else if a == "" || a[|a| - 1] == '/' then a + b
    else a + "/" + b
  }

  /** Candidate `c` is the wanted file when the base names agree case-insensitively. */
  predicate Matches(nameLower: string, c: string) {
    nameLower == Lower(Basename(c))
  }

  /** The position of the first matching candidate. */
  function FirstMatch(nameLower: string, candidates: seq<string>): (r: Option<nat>)
    ensures r.None? <==> forall k :: 0 <= k < |candidates| ==> !Matches(nameLower, candidates[k])
    ensures r.Some? ==> r.value < |candidates| && Matches(nameLower, candidates[r.value])
    ensures r.Some? ==> forall k :: 0 <= k < r.value ==> !Matches(nameLower, candidates[k])
  {
    if |candidates| == 0 then None
    else
      var earlier := candidates[..|candidates| - 1];
      assert forall k :: 0 <= k < |earlier| ==> earlier[k] == candidates[k];
      match FirstMatch(nameLower, earlier)
      case Some(k) => Some(k)
      case None => if Matches(nameLower, candidates[|candidates| - 1]) then Some(|candidates| - 1) else None
  }

  /** `pick_name`: the first candidate whose base name equals the file's base
      name ignoring case, placed in the file's directory; the file name itself
      when none matches (or the joined path is empty). */
  method PickName(filename: string, candidates: seq<string>) returns (r: string)
    ensures FirstMatch(Lower(Basename(filename)), candidates).None? ==> r == filename
    ensures FirstMatch(Lower(Basename(filename)), candidates).Some? ==>
      var joined := Join(Dirname(filename), candidates[FirstMatch(Lower(Basename(filename)), candidates).value]);
      r == if joined != "" then joined else filename
  {
    var filedir := Dirname(filename);
    var nameLower := Lower(Basename(filename));
    var i := 0;
    while i < |candidates| && nameLower != Lower(Basename(candidates[i]))
      invariant 0 <= i <= |candidates|
      invariant forall k :: 0 <= k < i ==> !Matches(nameLower, candidates[k])
    {
      i := i + 1;
    }
    r := filename;
    if i < |candidates| {
      var joined := Join(filedir, candidates[i]);
      if joined != "" {
        r := joined;
      }
    }
  }
}
